=== FILE: README.md ===
# SystemC object hierarchy and export registry

A Dafny model of two pieces of the SystemC kernel's object layer:

- **`sc_object`**, the hierarchical object node. The model covers:
  - the check applied to a requested leaf name;
  - the `{n}` names made up for unnamed objects;
  - `basename`;
  - registration in the object manager's directory, and attachment to the parent object or to the simulation root;
  - `detach` and destruction;
  - the child-object and child-event lists (append without a duplicate check, remove by swap-with-last);
  - orphaning of children to the root;
  - the lazily allocated attribute collection.
- **`sc_export_registry`** and the phase wrappers of **`sc_export_base`**. The model covers:
  - the registry vector with its construction watermark;
  - `insert` and `remove`;
  - the four lifecycle passes (`construction_done`, `elaboration_done`, `start_simulation`, `simulation_done`), each of which walks the vector from its high end down;
  - the per-export wrappers that push the parent module, run the overridable hook and pop;
  - the text of `report_error`.

The model is a functional state machine:

- Objects live in an arena `map<ObjectId, Node>`. The simulation context's root lists, the active object, the directory and the generated-name counter are fields of one immutable `World` record.
- The registry is a `seq<Export>` plus a watermark `nat`, inside a `Sim` record. `Sim` also holds the hierarchy stack, the running and elaboration-done flags, and the log of error reports.
- Every operation is a pure function from state to state. The outcome is a `Result` where the source can fail.
- The phase hooks are user code, so they are a parameter `Hook = (Phase, Sim, Export) -> Sim`. A hook may return any state, including one whose registry has grown (an export constructed during a pass) or has shrunk.
- Properties that hold only for well-behaved hooks are stated under two predicates:
  - `Balanced`: the hook pops what it pushes.
  - `AppendOnly`: the hook only appends to the registry.

Files:

| file | module | contents |
|---|---|---|
| outcomes.dfy | `Outcomes` | `Option`, `Result` |
| vectors.dfy | `Vectors` | first-match search, swap-with-last removal, the removal loop |
| naming.dfy | `Naming` | leaf-name sanitising, generated names, `basename` |
| attributes.dfy | `Attributes` | the lazily allocated attribute collection |
| object_tree.dfy | `ObjectTree` | the object arena, construction, detach, child lists, orphaning |
| exports.dfy | `Exports` | the registry, the phase wrappers, the passes, the two findings |

Three behaviours of the code are modelled as written, although a reader might expect otherwise:

- `insert` (sc_export.cpp:193-224) reports an error when the simulation is running or elaboration is done, and then appends the export anyway. A late export is not rejected.
- `report_error` (sc_export.cpp:174-178) puts the extra message first: `<msg>: export '<name>' (<kind>)`, or `export '<name>' (<kind>)` when there is no extra message.
- `construction_done` is meant to be called until it answers "idle", so that every export, including one constructed by a hook during an earlier call, gets its construction phase exactly once. The code skips exports appended during a call (Finding 1). Removal can also hide pending exports (Finding 2).

## Model

| member | source | states |
|---|---|---|
| Naming.Sanitize | src/sysc/kernel/sc_object.cpp:343-376 | each `.` or white-space character becomes `_` and every other character is kept, so the length is unchanged and the result is a legal leaf name |
| Naming.SubstituteIllegal | src/sysc/kernel/sc_object.cpp:360-377 | the copying loop produces exactly the sanitized name, and its flag is set iff the name held an illegal character, iff the copy differs from the original |
| Naming.SanitizeChangesIffIllegal | src/sysc/kernel/sc_object.cpp:365-384 | sanitizing changes a name iff the name holds an illegal character, so the illegal-characters warning is issued exactly when something was replaced |
| Naming.SanitizeIdempotent | src/sysc/kernel/sc_object.cpp:366-376 | sanitizing a sanitized name leaves it unchanged |
| Naming.Decimal | src/sysc/kernel/sc_object.cpp:175 | `%d` of a non-negative number is a non-empty string of decimal digits, with at least two digits from ten upward and no leading zero except for zero itself |
| Naming.DecimalRoundTrip | src/sysc/kernel/sc_object.cpp:175 | reading the printed digits back gives the number that was printed |
| Naming.NewName | src/sysc/kernel/sc_object.cpp:167-180 | the generated name is `{`, the counter's decimal digits, `}`; it is a legal leaf name, and the counter advances by one |
| Naming.NewNameInjective | src/sysc/kernel/sc_object.cpp:167-180 | different counter values give different generated names |
| Naming.Basename | src/sysc/kernel/sc_object.cpp:146-152 | the result is a suffix of the name with no separator in it, and when it is shorter than the name it is preceded by a separator; so it is the text after the last `.`, or the whole name |
| Naming.BasenameOfLeaf | src/sysc/kernel/sc_object.cpp:146-152 | a name without a separator is its own basename |
| Naming.BasenameOfPath | src/sysc/kernel/sc_object.cpp:146-152 | the basename of `parent.leaf` is `leaf` for any leaf without a separator |
| Vectors.IndexOf | src/sysc/kernel/sc_object.cpp:196-197 | the search finds the first position holding the element, or reports -1 iff the element is absent |
| Vectors.SwapRemoveAt | src/sysc/kernel/sc_object.cpp:198-199 | overwriting with the last element and popping removes one copy of the element at that position (multiset), moves the last element into its slot and leaves every other position alone |
| Vectors.Remove | src/sysc/kernel/sc_object.cpp:192-204 | the flag is true iff the element was present; then the length drops by one and exactly one copy leaves the multiset; otherwise the vector is unchanged |
| Vectors.RemoveFirst | src/sysc/kernel/sc_object.cpp:216-228 | the scanning loop finds the element iff it is present and computes the same removal as `Vectors.Remove` |
| Vectors.AppendThenRemove | src/sysc/kernel/sc_object.cpp:132-144 | appending without a duplicate check and then removing gives back the same multiset, and exactly the same vector when the element was not already listed |
| Attributes.Materialize | src/sysc/kernel/sc_object.cpp:544-556 | the collection access returns the existing collection, or a newly allocated empty one |
| Attributes.Add | src/sysc/kernel/sc_object.cpp:483-488 | the collection is allocated; the attribute is added iff no attribute of that name was there, and otherwise nothing changes |
| Attributes.Get | src/sysc/kernel/sc_object.cpp:493-505 | the collection is allocated with unchanged contents; an attribute is found iff one of that name is present, and it is that one |
| Attributes.Remove | src/sysc/kernel/sc_object.cpp:510-517 | with no collection, nothing is found and nothing is allocated; otherwise the named attribute is returned iff present and is taken out |
| Attributes.RemoveAll | src/sysc/kernel/sc_object.cpp:522-527 | an allocated collection is emptied; a missing one stays missing |
| Attributes.RemoveAllEmpties | src/sysc/kernel/sc_object.cpp:483-527 | after removing all attributes the count is zero and no name is found or removed, and the collection is allocated exactly when it was before |
| Attributes.Count | src/sysc/kernel/sc_object.cpp:532-539 | zero with no collection, otherwise the collection's size |
| Attributes.GetKeepsCount | src/sysc/kernel/sc_object.cpp:493-539 | the allocation done by a lookup does not change the count, and nothing is found before the first allocation |
| Attributes.AddThenGet | src/sysc/kernel/sc_object.cpp:483-498 | an attribute that was added is found again by its name, and the count grows by one |
| Attributes.AddThenRemove | src/sysc/kernel/sc_object.cpp:483-517 | removing an attribute just added returns it and restores the count |
| ObjectTree.AddChildObject | src/sysc/kernel/sc_object.cpp:139-144 | the child is appended to the holder's list even if already present, and nothing else changes |
| ObjectTree.AddChildEvent | src/sysc/kernel/sc_object.cpp:132-137 | the event is appended to the holder's list even if already present, and nothing else changes |
| ObjectTree.RemoveChildObject | src/sysc/kernel/sc_object.cpp:216-229 | true iff the child was listed; then one copy leaves the list (length minus one, multiset minus the child), the child's parent link is cleared and every other object is unchanged; false changes nothing |
| ObjectTree.RemoveChildEvent | src/sysc/kernel/sc_object.cpp:192-204 | true iff the event was listed; then one copy leaves the list and nothing else changes, no parent link included; false changes nothing |
| ObjectTree.AddThenRemoveChildObject | src/sysc/kernel/sc_object.cpp:139-229 | removing a child just added finds it, clears its parent link, and gives the holder back the same children (the same list when the child was new) |
| ObjectTree.AddThenRemoveChildEvent | src/sysc/kernel/sc_object.cpp:132-204 | removing an event just added finds it and gives back the same events; when it was new, the whole world comes back unchanged |
| ObjectTree.ObjectInit | src/sysc/kernel/sc_object.cpp:240-330 | the new node's parent is the active object and its name comes fresh from the object manager, made from the active object's path and the leaf (`{n}` when no name was given, which also advances the counter); only a named object enters the directory and is appended to its parent's list, or to the root's list when it has no parent; the parent's other fields, every other object, the events and the active object are unchanged |
| ObjectTree.ObjectInitPathName | src/sysc/kernel/sc_object.cpp:258-315 | when `<parent path>.<leaf>` (or the leaf alone at the top level) is free, the named object gets that path, and its basename is the leaf it was given |
| ObjectTree.Attach | src/sysc/kernel/sc_object.cpp:322-327 | the object is appended to its parent's child list, or to the root's list when it has no parent; nothing else changes |
| ObjectTree.Unlink | src/sysc/kernel/sc_object.cpp:413-416 | exactly one copy of the object leaves its parent's child list (clearing its link if it was listed) or the root's list; nothing else changes |
| ObjectTree.Requested | src/sysc/kernel/sc_object.cpp:355-357 | a missing or empty name is replaced by the generated "object" name, any other name is kept |
| ObjectTree.Construct | src/sysc/kernel/sc_object.cpp:349-388 | the named constructor sanitizes the requested name, warns with "`<name>` substituted by `<sanitized>`" exactly when the name was illegal, and always enters the directory and the hierarchy under the sanitized name; the new object has no children and no attribute collection; only the objects, the directory, the root's list and the warnings change, and among the existing objects only the parent's child list |
| ObjectTree.ObjectInitKeepsDirectory | src/sysc/kernel/sc_object.cpp:315-328 | construction keeps every directory entry pointing at an object of that name, and a named object is what its new name leads to |
| ObjectTree.ConstructKeepsDirectory | src/sysc/kernel/sc_object.cpp:321-388 | the named constructor keeps the directory and the live objects in step: every entry leads to the object of that name, and every object, the new one included, is entered under its own name |
| ObjectTree.Detach | src/sysc/kernel/sc_object.cpp:402-417 | the object's name leaves the directory; one copy of the object leaves its parent's list (clearing its link, the parent's other fields and the object's other fields unchanged) or the root's list; the events, the active object, the counter and the warnings are unchanged |
| ObjectTree.Destroy | src/sysc/kernel/sc_object.cpp:390-394 | the object is removed with its attributes, its name leaves the directory, and one copy of it leaves its parent's child list or the root's list; no other object changes except the parent's list |
| ObjectTree.DestroyKeepsDirectory | src/sysc/kernel/sc_object.cpp:390-417 | teardown keeps the directory and the live objects in step: only the destroyed object's entry leaves, and every remaining object is still entered under its own name |
| ObjectTree.RegisteredNamesDistinct | src/sysc/kernel/sc_object.cpp:321-328 | while every live object is entered under its name, no two live objects share a path name |
| ObjectTree.InitThenDestroy | src/sysc/kernel/sc_object.cpp:315-417 | provided no list or directory entry already names the new id, constructing a named object and destroying it again gives back exactly the world it was constructed in |
| ObjectTree.DestroyUndoesAttachUnderParent | src/sysc/kernel/sc_object.cpp:322-325 | the parent case: the parent's list, the directory and the arena come back exactly |
| ObjectTree.DestroyUndoesAttachAtRoot | src/sysc/kernel/sc_object.cpp:322-327 | the root case: the root's list, the directory and the arena come back exactly |
| ObjectTree.ReparentObjectsToRoot | src/sysc/kernel/sc_object.cpp:467-471 | each listed object, in order, loses its parent link and is appended to the root's list; unlisted objects are unchanged |
| ObjectTree.OrphanChildObjects | src/sysc/kernel/sc_object.cpp:460-472 | every child loses its parent link and is appended to the root's list in order; no object is destroyed, and nothing but the objects and the root's list changes |
| ObjectTree.ReparentEventsToRoot | src/sysc/kernel/sc_object.cpp:447-451 | each listed event, in order, loses its parent link and is appended to the root's event list |
| ObjectTree.OrphanChildEvents | src/sysc/kernel/sc_object.cpp:440-452 | every child event loses its parent link and joins the root's events; nothing but the events and the root's events changes |
| ObjectTree.OrphanThenDestroy | src/sysc/kernel/sc_object.cpp:390-472 | after orphaning and destruction, every former child is alive, has no parent and is listed under the root |
| ObjectTree.OrphanSurvivesDestroy | src/sysc/kernel/sc_object.cpp:402-417 | one orphaned child keeps its cleared link and its root listing through the teardown of its former parent |
| ObjectTree.NumAttributes | src/sysc/kernel/sc_object.cpp:532-539 | zero for an object whose collection was never allocated, otherwise its size |
| ObjectTree.RemoveAttribute | src/sysc/kernel/sc_object.cpp:510-517 | with no collection, nothing changes at all; otherwise the attribute of that name is gone, the one returned is the one that was stored under the name, the count drops by one iff an attribute was found, and nothing else in the world changes |
| Exports.ErrorText | src/sysc/communication/sc_export.cpp:171-180 | the report text always ends with `export '<name>' (<kind>)`, and is exactly that without an extra message |
| Exports.ErrorTextRoundTrip | src/sysc/communication/sc_export.cpp:174-178 | the extra message (or its absence) can be read back from the text, so the two layouts never collide |
| Exports.Insert | src/sysc/communication/sc_export.cpp:190-225 | the export is appended in every case, one error is logged when the simulation is running and another when elaboration is done, and nothing else changes |
| Exports.LateInsertReportedAndAppended | src/sysc/communication/sc_export.cpp:193-199 | the reports carry the "simulation running" and "elaboration done" messages for that export, and the export is registered all the same |
| Exports.InsertThenRemove | src/sysc/communication/sc_export.cpp:224-243 | removing an export right after inserting it gives back the registry exactly, even when it was already registered, because the search from the end finds the appended copy |
| Exports.LastIndexOf | src/sysc/communication/sc_export.cpp:231-236 | the search from the end finds the highest position holding the export, or -1 when there is none |
| Exports.Remove | src/sysc/communication/sc_export.cpp:228-244 | an empty registry is left alone; an unregistered export is the NOT_REGISTERED error with no change; otherwise the length drops by one and the found entry leaves the multiset, the watermark untouched |
| Exports.RemoveDeletesExport | src/sysc/communication/sc_export.cpp:228-244 | with distinct identities, after removal the export is no longer registered, every other export still is, and identities stay distinct |
| Exports.SwapRemoveDeletes | src/sysc/communication/sc_export.cpp:242-243 | overwriting with the last entry and shrinking deletes exactly that identity and keeps identities distinct |
| Exports.RunPhase | src/sysc/communication/sc_export.cpp:101-167 | the construction wrapper first reports NOT_BOUND for an export without an interface; then a parent that is not a module is a fault that keeps the reports issued so far; otherwise the hook runs with the parent pushed and the top of the stack is popped, which fails only when the hook left the stack empty; apart from the pop, the state is the one the hook left |
| Exports.Reported | src/sysc/communication/sc_export.cpp:104-107 | the construction phase reports NOT_BOUND iff the export has no interface, whatever its parent, and nothing else changes |
| Exports.Pushed | src/sysc/communication/sc_export.cpp:104-110 | the hook runs after the NOT_BOUND check, with the parent module pushed on the hierarchy stack |
| Exports.NotBoundReportedBeforeParentCheck | src/sysc/communication/sc_export.cpp:104-109 | an unbound export without a module for a parent still gets its NOT_BOUND report before the wrapper stops |
| Exports.RunPhaseBalanced | src/sysc/communication/sc_export.cpp:108-112 | with a hook that pops what it pushes, the wrapper succeeds and returns the hierarchy stack as it found it |
| Exports.RunPhaseAppendOnly | src/sysc/communication/sc_export.cpp:101-167 | with a hook that only appends, the wrapper only appends |
| Exports.DefaultPhase | src/sysc/communication/sc_export.cpp:95-167 | with the default empty bodies a wrapper changes nothing, except the construction wrapper's NOT_BOUND report for an export without an interface |
| Exports.Sweep | src/sysc/communication/sc_export.cpp:270-304 | the loop shared by the four passes, from the last index down to a lower bound (the watermark for construction, zero otherwise); for the three later passes it visits one export per index down to zero |
| Exports.SweepAppendOnly | src/sysc/communication/sc_export.cpp:270-304 | with hooks that only append, a pass never indexes past the end, only appends, and visits exactly the entries from its start down to its low bound as they were when it started, each once, in descending order |
| Exports.SweepKeepsHierarchy | src/sysc/communication/sc_export.cpp:101-167 | with balanced hooks, a whole pass leaves the hierarchy stack as it found it |
| Exports.ConstructionDone | src/sysc/communication/sc_export.cpp:263-276 | idle (true, nothing changed) when the watermark equals the size; otherwise "did work" (false), with the watermark set to the size after the pass |
| Exports.ConstructionDoneSettles | src/sysc/communication/sc_export.cpp:266-274 | right after a call, a second call with no insertion in between is idle and changes nothing |
| Exports.ConstructionDoneVisits | src/sysc/communication/sc_export.cpp:270-275 | with hooks that only append, a working call visits the entries from the end at entry down to the watermark, each once and in descending order, never one below the watermark, keeps them as a prefix and answers false |
| Exports.FullPass | src/sysc/communication/sc_export.cpp:280-304 | a completed pass makes exactly one visit per entry present at the start, the last entry first; an empty registry is left alone |
| Exports.ElaborationDone | src/sysc/communication/sc_export.cpp:280-286 | one visit per entry, the last entry first; an empty registry is left alone |
| Exports.StartSimulation | src/sysc/communication/sc_export.cpp:290-296 | one visit per entry, the last entry first; an empty registry is left alone |
| Exports.SimulationDone | src/sysc/communication/sc_export.cpp:298-304 | one visit per entry, the last entry first; an empty registry is left alone |
| Exports.LaterPassesVisitAll | src/sysc/communication/sc_export.cpp:280-304 | with hooks that only append, each of the three passes visits every entry exactly once, from the last to the first |
| Exports.FullPassVisitsAll | src/sysc/communication/sc_export.cpp:280-304 | with hooks that only append, `elaboration_done`, `start_simulation` and `simulation_done` visit every entry once, from the last to the first |
| Exports.AppendedDuringPassIsSkipped | src/sysc/communication/sc_export.cpp:270-274 | an export appended by a hook during a construction pass is counted as done without ever getting its construction phase |
| Exports.ConstructionDoneFixed | src/sysc/communication/sc_export.cpp:263-276 | the corrected pass moves the watermark only over the entries present at entry, never past the end |
| Exports.FixedFirstRound | src/sysc/communication/sc_export.cpp:270-275 | with hooks that only append, the corrected pass visits the pending entries in descending order and sets the watermark to the size at entry |
| Exports.SecondRound | src/sysc/communication/sc_export.cpp:266-274 | the next corrected call visits exactly the entries past the watermark the first one left |
| Exports.FixedRoundsVisitEachOnce | src/sysc/communication/sc_export.cpp:266-275 | with hooks that only append, two corrected calls visit every entry from the original watermark to the grown end exactly once |
| Exports.RemoveCanHidePendingExport | src/sysc/communication/sc_export.cpp:241-243 | a removal can swap a pending export below the watermark, after which the next construction pass is idle and never visits it |
| Exports.RemoveCanLeaveWatermarkPastEnd | src/sysc/communication/sc_export.cpp:228-244 | a removal can leave the watermark above the size, after which the next pass answers "did work" having visited nothing |
| Exports.RemoveKeepingWatermark | src/sysc/communication/sc_export.cpp:228-244 | the corrected removal fails exactly when `remove` does, with the same report, and keeps the watermark within the size |
| Exports.RemoveKeepingWatermarkSeparates | src/sysc/communication/sc_export.cpp:228-244 | the corrected removal takes the export out of the part (handled or pending) it was in and keeps the other part's entries in it, adjusting the watermark when a handled entry leaves |

## Left out

- `print`, `dump`, `trace` and stream output: pure I/O.
- The memory-pool buffer for the sanitized name, and the fixed-size `sprintf` buffers: names are `seq<char>` of any length.
- The internals of the object manager are not part of this model: `create_name`, `insert_object`, `remove_object` and `find_object`. The directory is a map from name to object. `create_name` is a function parameter of the directory, the active object's path and the leaf. It promises a name not already in the directory (`ResolvesFresh`). Where a lemma needs it, it also promises to use `<parent path>.<leaf>` when that is free (`KeepsFreePaths`), the rule of the disabled predecessor at sc_object.cpp:266-313. How it renames on a clash is not modelled.
- `sc_gen_unique_name`: its result is a parameter of `Construct`.
- The copy constructor and the default constructor: they are `ObjectInit` given a generated name, so they add nothing beyond `ObjectInit`.
- `ObjectTree.ObjectInit` with no name: the object gets a `{n}` name but is not entered in the directory, so two such calls, or one and a later object asking for the same `{n}`, can leave two live objects with one name. No constructor at sc_object.cpp:332-388 passes a null name, so the directory invariant (`ObjectTree.ConstructKeepsDirectory`) is stated for `ObjectTree.Construct` and not for this path.
- The internals of `sc_attr_cltn`: a map from name to attribute that refuses a second attribute of the same name.
- The simulation context's own child lists: they are taken to append, and to remove by swap-with-last, like the object's lists.
- `sc_enable_name_checking`: taken to be true, its only value in the code shown.
- The `m_simc` test in `detach`: construction always sets it, so it is always true.
- The `#if 0` blocks and the `DEBUG_SYSTEMC` duplicate check: not live code.
- The `SC_REPORT_*` severity policy: reports are logged, in order, and execution continues.
- `DCAST`/`sc_assert` on the parent module: a `NoParentModule` fault.
- A hook that leaves the hierarchy stack empty: a `HierarchyUnderflow` fault, since nothing is left to pop. A hook that pops more than it pushed but leaves something on the stack is not detected, and the wrapper pops whatever is on top.
- Hooks are taken not to throw. In the source, an exception from a hook, such as an error report under a throwing report policy, skips the `hierarchy_pop` after it and abandons the pass with the parent module still pushed. A `Hook` here is a total function and cannot express that.
- Names are sequences of characters without a terminating NUL. `isspace` is the one of the "C" locale (codes 9 to 13 and 32); other locales are not modelled.
- Exports compare by pointer in the source. The model compares them by an identity field.
- Registry and export constructors and destructors, and `get_interface`: an export carries a `bound` flag instead.
- Re-entrant calls of a pass from inside a hook: a hook returns a new state but cannot start a pass.
- `Naming.NewName`: the counter is an unbounded `nat`; the source's `int` would overflow after 2^31 names.
- `Exports.Remove`: on an unregistered export it returns the NOT_REGISTERED error and changes nothing. The source goes on to write through index -1, which is undefined behaviour.
- `Exports.Sweep`: a hook that shrinks the registry below the next index gives an `IndexOutOfRange` fault. In the source this is an out-of-bounds access.
- `Exports.Sweep`: its own contract counts the visits only for the three later passes. A hook may move the watermark during the construction pass, so the construction visits are stated by `Exports.SweepAppendOnly`, for hooks that only append.
- `Exports.RemoveKeepingWatermark`: it does not restate the handled/pending split. `Exports.RemoveKeepingWatermarkSeparates` states it.
- The TLM example initiator in the unit tests: it is scheduler- and timing-driven, and is not part of this model.

## Findings

| source | as written | input that shows it | evidently intended | confidence | as-written member | corrected member |
|---|---|---|---|---|---|---|
| src/sysc/communication/sc_export.cpp:270-274 | the loop starts at the size on entry, but the watermark is then set to the size after the pass | registry `[a]` with watermark 0, whose construction hook constructs export `b`: `a` is visited, the watermark becomes 2, and the next call is idle, so `b` never gets its construction phase | an export appended during a pass stays pending and is visited by the next call, so each export gets its construction phase once | not executed | Exports.AppendedDuringPassIsSkipped | Exports.ConstructionDoneFixed, Exports.FixedRoundsVisitEachOnce |
| src/sysc/communication/sc_export.cpp:228-244 | `remove` swaps the last entry into the removed slot and never adjusts the watermark | registry `[a, b, c]` with watermark 2: removing `a` gives `[c, b]` with watermark 2, so `c` is never constructed. Registry `[a]` with watermark 1: removing `a` leaves watermark 1 over an empty registry | removal keeps handled entries below the watermark and pending ones above it, and the watermark within the size | not executed | Exports.RemoveCanHidePendingExport, Exports.RemoveCanLeaveWatermarkPastEnd | Exports.RemoveKeepingWatermark, Exports.RemoveKeepingWatermarkSeparates |

=== FILE: attributes.dfy ===
/** The attribute bag of an object. It is allocated only on first use: an
    object that never touched its attributes has none, and the counting and
    removing operations do not allocate it. The collection itself
    (sc_attr_cltn) is not part of this model; it is taken to be a table
    from attribute name to attribute that refuses a second attribute of the
    same name, looks attributes up by name and removes them by name. */
module Attributes {
  import opened Outcomes

  type AttrName = seq<char>

  /** The identity of an attribute object (the source keeps pointers). */
  type Handle = nat

  /** `None` until first allocation, then the collection by name. */
  type Bag = Option<map<AttrName, Handle>>

  /** The collection, allocating an empty one if there is none yet. */
  function Materialize(b: Bag): (c: map<AttrName, Handle>)
    ensures b.Some? ==> c == b.value
    ensures b.None? ==> |c| == 0
  {
    if b.Some? then b.value else map[]
  }

  /** `add_attribute`: allocates the bag, then adds the attribute unless one
      of the same name is already there; the flag says whether it was added. */
  function Add(b: Bag, name: AttrName, h: Handle): (r: (bool, Bag))
    ensures r.1.Some?
    ensures r.0 <==> b.None? || name !in b.value
    ensures r.0 ==> r.1.value == Materialize(b)[name := h]
    ensures !r.0 ==> r.1 == b
  {
    var c := Materialize(b);
    if name in c then (false, Some(c)) else (true, Some(c[name := h]))
  }

  /** `get_attribute`: allocates the bag, then looks the name up. */
  function Get(b: Bag, name: AttrName): (r: (Option<Handle>, Bag))
    ensures r.1.Some? && r.1.value == Materialize(b)
    ensures r.0.Some? <==> b.Some? && name in b.value
    ensures r.0.Some? ==> r.0.value == b.value[name]
  {
    var c := Materialize(b);
    (if name in c then Some(c[name]) else None, Some(c))
  }

  /** `remove_attribute`: with no bag, returns null and allocates nothing;
      otherwise removes the attribute of that name and returns it. */
  function Remove(b: Bag, name: AttrName): (r: (Option<Handle>, Bag))
    ensures b.None? ==> r == (None, None)
    ensures b.Some? ==> r.1 == Some(b.value - {name})
    ensures r.0.Some? <==> b.Some? && name in b.value
    ensures r.0.Some? ==> r.0.value == b.value[name]
  {
    match b
    case None => (None, None)
    case Some(c) => (if name in c then Some(c[name]) else None, Some(c - {name}))
  }

  /** `remove_all_attributes`: empties the bag if there is one. */
  function RemoveAll(b: Bag): (r: Bag)
    ensures b.None? ==> r.None?
    ensures b.Some? ==> r == Some(map[])
  {
    match b
    case None => None
    case Some(_) => Some(map[])
  }

  /** `num_attributes`: zero when no bag was ever allocated. */
  function Count(b: Bag): (n: nat)
    ensures b.None? ==> n == 0
    ensures b.Some? ==> n == |b.value|
  {
    match b
    case None => 0
    case Some(c) => |c|
  }

  /** Looking an attribute up allocates the bag but is not observable
      through the count, and nothing is looked up in a fresh bag. */
  lemma GetKeepsCount(b: Bag, name: AttrName)
    ensures Count(Get(b, name).1) == Count(b)
    ensures b.None? ==> Get(b, name).0.None?
  {
  }

  /** An attribute that was added is found again by its name, and the
      count grows by exactly one. */
  lemma AddThenGet(b: Bag, name: AttrName, h: Handle)
    requires Add(b, name, h).0
    ensures Get(Add(b, name, h).1, name).0 == Some(h)
    ensures Count(Add(b, name, h).1) == Count(b) + 1
  {
  }

  /** After removing all attributes nothing is counted and nothing is
      found, and a bag that was never allocated still is not. */
  lemma RemoveAllEmpties(b: Bag, name: AttrName)
    ensures Count(RemoveAll(b)) == 0
    ensures Get(RemoveAll(b), name).0.None?
    ensures Remove(RemoveAll(b), name).0.None?
    ensures RemoveAll(b).None? <==> b.None?
  {
  }

  /** Removing an attribute just added returns it and restores the count;
      the bag stays allocated. */
  lemma AddThenRemove(b: Bag, name: AttrName, h: Handle)
    requires Add(b, name, h).0
    ensures Remove(Add(b, name, h).1, name).0 == Some(h)
    ensures Count(Remove(Add(b, name, h).1, name).1) == Count(b)
  {
    var c := Materialize(b);
    assert c[name := h] - {name} == c;
  }
}

=== FILE: exports.dfy ===
/** The export registry (sc_export_registry) and the per-export phase
    wrappers (sc_export_base). The registry is an ordered vector of exports
    plus the construction watermark: the number of entries the construction
    phase has already handled. The four lifecycle passes walk the vector
    from its high end down; each visit brackets the export's overridable
    hook with a push and pop of its parent module on the hierarchy stack.

    The hooks are user code, so they are a parameter: a function that may
    return any new state, including a registry to which it appended (an
    export constructed inside a hook) or from which it removed entries. */
module Exports {
  import opened Outcomes
  import Vectors

  type ExportId = nat
  type ModuleId = nat

  /** An export as the registry sees it: its identity, path name and kind,
      whether it is bound to an interface, and its parent object when that
      parent is a module. */
  datatype Export = Export(id: ExportId, name: seq<char>, kind: seq<char>, bound: bool, parent: Option<ModuleId>)

  datatype Registry = Registry(entries: seq<Export>, watermark: nat)

  datatype ReportId = InsertExport | NotBoundAfterConstruction | NotRegistered

  /** An error-severity report: its identifier, the export it is about and
      the extra message, if any; `ErrorText` gives its text. */
  datatype Report = Report(id: ReportId, culprit: Export, detail: Option<seq<char>>)

  /** The part of the simulation context the registry touches. */
  datatype Sim = Sim(
    registry: Registry,
    hierarchy: seq<ModuleId>,
    running: bool,
    elaborationDone: bool,
    errors: seq<Report>)

  datatype Phase = Construction | Elaboration | StartOfSimulation | EndOfSimulation

  /** The overridable body of a phase (before_end_of_elaboration,
      end_of_elaboration, start_of_simulation, end_of_simulation). */
  type Hook = (Phase, Sim, Export) -> Sim

  /** What stops a pass: a parent that is not a module (the source asserts;
      the fault keeps the reports issued up to that point), a hook that left
      the hierarchy stack empty, so that nothing is left to pop, or an index
      past the end of a registry that a hook shrank (undefined behaviour in
      the source). */
  datatype Fault =
    | NoParentModule(culprit: ExportId, errors: seq<Report>)
    | HierarchyUnderflow(culprit: ExportId)
    | IndexOutOfRange(index: int)

  /** The state after a pass and the exports visited, in visiting order. */
  datatype Pass = Pass(sim: Sim, visited: seq<Export>)

  /** The default bodies, which do nothing. */
  function NoopHook(p: Phase, s: Sim, e: Export): Sim {
    s
  }

  /** The hook leaves the hierarchy stack as it found it. */
  ghost predicate Balanced(hook: Hook) {
    forall p: Phase, s: Sim, e: Export :: hook(p, s, e).hierarchy == s.hierarchy
  }

  /** `r'` is `r` with possibly more entries appended, watermark untouched. */
  predicate Extends(r: Registry, r': Registry) {
    |r.entries| <= |r'.entries| && r'.entries[..|r.entries|] == r.entries && r'.watermark == r.watermark
  }

  /** The hook only ever appends to the registry (it may construct exports
      but destroys none and never runs a phase itself). */
  ghost predicate AppendOnly(hook: Hook) {
    forall p: Phase, s: Sim, e: Export :: Extends(s.registry, hook(p, s, e).registry)
  }

  function Reverse<T>(xs: seq<T>): (r: seq<T>)
    ensures |r| == |xs|
    ensures forall k :: 0 <= k < |xs| ==> r[k] == xs[|xs| - 1 - k]
    decreases |xs|
  {
    if |xs| == 0 then [] else [xs[|xs| - 1]] + Reverse(xs[..|xs| - 1])
  }

  // ---------------------------------------------------------------------------
  // Error reports
  // ---------------------------------------------------------------------------

  /** `export '<name>' (<kind>)`. */
  function ExportTag(e: Export): seq<char> {
    "export '" + e.name + "' (" + e.kind + ")"
  }

  /** The text of `report_error`: the export tag, preceded by the extra
      message and a colon when there is one. */
  function ErrorText(e: Export, detail: Option<seq<char>>): (r: seq<char>)
    ensures |ExportTag(e)| <= |r| && r[|r| - |ExportTag(e)|..] == ExportTag(e)
    ensures detail.None? ==> r == ExportTag(e)
  {
    match detail
    case None => ExportTag(e)
    case Some(d) => d + ": " + ExportTag(e)
  }

  /** Reads the extra message back out of a report text about `e`. */
  function DetailOf(msg: seq<char>, e: Export): Option<seq<char>> {
    var tag := ExportTag(e);
    if msg == tag then None
    else if |tag| + 2 <= |msg| && msg[|msg| - |tag| - 2..] == ": " + tag then Some(msg[..|msg| - |tag| - 2])
    else None
  }

  /** The report text determines the extra message: formatting and reading
      back give the message that was passed in, or none. */
  lemma ErrorTextRoundTrip(e: Export, detail: Option<seq<char>>)
    ensures DetailOf(ErrorText(e, detail), e) == detail
  {
    var tag := ExportTag(e);
    if detail.Some? {
      var msg := ErrorText(e, detail);
      var d := detail.value;
      assert msg == d + (": " + tag);
      assert |msg| != |tag|;
      assert msg[|msg| - |tag| - 2..] == ": " + tag;
      assert msg[..|msg| - |tag| - 2] == d;
    }
  }

  // ---------------------------------------------------------------------------
  // Registry membership
  // ---------------------------------------------------------------------------

  /** `insert`: an error is reported when the simulation is running and
      another when elaboration is done, and in every case the export is
      appended. */
  function Insert(s: Sim, e: Export): (r: Sim)
    ensures r.registry.entries == s.registry.entries + [e]
    ensures r.registry.watermark == s.registry.watermark
    ensures r.hierarchy == s.hierarchy && r.running == s.running && r.elaborationDone == s.elaborationDone
    ensures |r.errors| == |s.errors| + (if s.running then 1 else 0) + (if s.elaborationDone then 1 else 0)
    ensures r.errors[..|s.errors|] == s.errors
    ensures forall k :: |s.errors| <= k < |r.errors| ==> r.errors[k].id == InsertExport
  {
    var late1 := if s.running then [Report(InsertExport, e, Some("simulation running"))] else [];
    var late2 := if s.elaborationDone then [Report(InsertExport, e, Some("elaboration done"))] else [];
    s.(registry := s.registry.(entries := s.registry.entries + [e]), errors := s.errors + late1 + late2)
  }

  /** An export inserted while the simulation runs gets the "simulation
      running" report, one inserted after elaboration the "elaboration
      done" one, and it is appended all the same. */
  lemma LateInsertReportedAndAppended(s: Sim, e: Export)
    ensures s.running ==>
              Insert(s, e).errors[|s.errors|] == Report(InsertExport, e, Some("simulation running"))
    ensures s.elaborationDone ==>
              Insert(s, e).errors[|Insert(s, e).errors| - 1] == Report(InsertExport, e, Some("elaboration done"))
    ensures e in Insert(s, e).registry.entries
  {
  }

  /** The highest position holding an export with this identity, or -1. */
  function LastIndexOf(entries: seq<Export>, id: ExportId): (r: int)
    ensures -1 <= r < |entries|
    ensures 0 <= r ==> entries[r].id == id
    ensures forall j :: r < j < |entries| ==> entries[j].id != id
    decreases |entries|
  {
    if |entries| == 0 then -1
    else if entries[|entries| - 1].id == id then |entries| - 1
    else LastIndexOf(entries[..|entries| - 1], id)
  }

  /** `remove`: nothing happens on an empty registry; otherwise the search
      runs from the end and the entry found is swapped with the last and
      dropped. The watermark is left as it was. An export that is not
      registered is an error and changes nothing (the source would go on to
      index position -1). */
  function Remove(s: Sim, e: Export): (r: Result<Sim, Report>)
    ensures |s.registry.entries| == 0 ==> r == Success(s)
    ensures r.Failure? <==> 0 < |s.registry.entries| && forall j :: 0 <= j < |s.registry.entries| ==> s.registry.entries[j].id != e.id
    ensures r.Failure? ==> r.error == Report(NotRegistered, e, None)
    ensures r.Success? ==> r.value == s.(registry := r.value.registry)
    ensures r.Success? ==> r.value.registry.watermark == s.registry.watermark
    ensures r.Success? && 0 < |s.registry.entries| ==>
              var i := LastIndexOf(s.registry.entries, e.id);
              && 0 <= i && s.registry.entries[i].id == e.id
              && |r.value.registry.entries| == |s.registry.entries| - 1
              && multiset(r.value.registry.entries) == multiset(s.registry.entries) - multiset{s.registry.entries[i]}
  {
    var entries := s.registry.entries;
    if |entries| == 0 then Success(s)
    else
      var i := LastIndexOf(entries, e.id);
      if i == -1 then Failure(Report(NotRegistered, e, None))
      else Success(s.(registry := s.registry.(entries := Vectors.SwapRemoveAt(entries, i))))
  }

  /** Removing an export right after inserting it gives the registry back
      exactly, even when the export was already registered: the search from
      the end finds the copy just appended, in the last slot. Only the
      reports of the insertion remain. */
  lemma InsertThenRemove(s: Sim, e: Export)
    ensures Remove(Insert(s, e), e) == Success(Insert(s, e).(registry := s.registry))
  {
    var es := s.registry.entries + [e];
    assert LastIndexOf(es, e.id) == |s.registry.entries|;
    assert Vectors.SwapRemoveAt(es, |s.registry.entries|) == s.registry.entries;
  }

  /** No two entries share an identity. */
  predicate DistinctIds(entries: seq<Export>) {
    forall j, k :: 0 <= j < k < |entries| ==> entries[j].id != entries[k].id
  }

  /** In a registry without duplicates, a removed export is no longer
      registered, the rest stay registered, and no duplicate appears. */
  lemma RemoveDeletesExport(s: Sim, e: Export)
    requires DistinctIds(s.registry.entries)
    requires Remove(s, e).Success?
    ensures var es := Remove(s, e).value.registry.entries;
            && (forall x :: x in es ==> x.id != e.id)
            && (forall x :: x in s.registry.entries && x.id != e.id ==> x in es)
            && DistinctIds(es)
  {
    var entries := s.registry.entries;
    if |entries| > 0 {
      var i := LastIndexOf(entries, e.id);
      assert Remove(s, e).value.registry.entries == Vectors.SwapRemoveAt(entries, i);
      SwapRemoveDeletes(entries, i);
    }
  }

  /** Swap-with-last removal of entry `i` from entries with distinct
      identities: that identity is gone, every other entry stays, and the
      identities stay distinct. */
  lemma SwapRemoveDeletes(entries: seq<Export>, i: nat)
    requires DistinctIds(entries)
    requires i < |entries|
    ensures var es := Vectors.SwapRemoveAt(entries, i);
            && (forall x :: x in es ==> x.id != entries[i].id)
            && (forall x :: x in entries && x.id != entries[i].id ==> x in es)
            && DistinctIds(es)
  {
    var es := Vectors.SwapRemoveAt(entries, i);
    forall x | x in es ensures x.id != entries[i].id {
      assert multiset(es)[x] > 0;
      var j :| 0 <= j < |entries| && entries[j] == x;
      if j == i {
        assert false;
      }
    }
    forall x | x in entries && x.id != entries[i].id ensures x in es {
      assert x != entries[i];
      assert multiset(es)[x] == multiset(entries)[x];
    }
    forall j, k | 0 <= j < k < |es| ensures es[j].id != es[k].id {
      DistinctAfterSwapRemove(entries, i, j, k);
    }
  }

  /** Swap-with-last removal keeps identities distinct. */
  lemma DistinctAfterSwapRemove(entries: seq<Export>, i: nat, j: nat, k: nat)
    requires DistinctIds(entries)
    requires i < |entries|
    requires j < k < |entries| - 1
    ensures Vectors.SwapRemoveAt(entries, i)[j].id != Vectors.SwapRemoveAt(entries, i)[k].id
  {
    var es := Vectors.SwapRemoveAt(entries, i);
    var last := |entries| - 1;
    var jj := if j == i then last else j;
    var kk := if k == i then last else k;
    assert es[j] == entries[jj] && es[k] == entries[kk];
    assert jj != kk;
  }

  // ---------------------------------------------------------------------------
  // Per-export phase wrappers
  // ---------------------------------------------------------------------------

  /** One export's phase entry point: for the construction phase an unbound
      export is reported first; then the parent must be a module, which is
      pushed, the hook runs, and the stack is popped. */
  function RunPhase(p: Phase, s: Sim, e: Export, hook: Hook): (r: Result<Sim, Fault>)
    ensures e.parent.None? ==> r == Failure(NoParentModule(e.id, Reported(p, s, e).errors))
    ensures r.Failure? ==> r.error.NoParentModule? || r.error.HierarchyUnderflow?
    ensures e.parent.Some? ==>
              var after := hook(p, Pushed(p, s, e), e);
              && (r.Failure? <==> |after.hierarchy| == 0)
              && (r.Success? ==> r.value == after.(hierarchy := r.value.hierarchy)
                                 && r.value.hierarchy + [after.hierarchy[|after.hierarchy| - 1]] == after.hierarchy)
  {
    var reported := Reported(p, s, e);
    match e.parent
    case None => Failure(NoParentModule(e.id, reported.errors))
    case Some(m) =>
      var after := hook(p, reported.(hierarchy := reported.hierarchy + [m]), e);
      if |after.hierarchy| == 0 then Failure(HierarchyUnderflow(e.id))
      else
        var popped := after.hierarchy[..|after.hierarchy| - 1];
        assert popped + [after.hierarchy[|after.hierarchy| - 1]] == after.hierarchy;
        Success(after.(hierarchy := popped))
  }

  /** The state after the NOT_BOUND check, which comes before anything
      else: in the construction phase an export without an interface is
      reported, whatever its parent. */
  function Reported(p: Phase, s: Sim, e: Export): (r: Sim)
    ensures r.registry == s.registry && r.hierarchy == s.hierarchy
    ensures r.errors == s.errors + (if p == Construction && !e.bound
                                    then [Report(NotBoundAfterConstruction, e, None)] else [])
    ensures r.running == s.running && r.elaborationDone == s.elaborationDone
  {
    if p == Construction && !e.bound
    then s.(errors := s.errors + [Report(NotBoundAfterConstruction, e, None)])
    else s
  }

  /** The state the hook of `RunPhase` runs in: after the NOT_BOUND
      report, if any, with the parent module pushed. */
  function Pushed(p: Phase, s: Sim, e: Export): (r: Sim)
    requires e.parent.Some?
    ensures r.registry == s.registry
    ensures r.hierarchy == s.hierarchy + [e.parent.value]
    ensures r.errors == Reported(p, s, e).errors
    ensures r.running == s.running && r.elaborationDone == s.elaborationDone
  {
    var reported := Reported(p, s, e);
    reported.(hierarchy := reported.hierarchy + [e.parent.value])
  }

  /** Without a module for a parent, the construction wrapper of an
      unbound export still issues its NOT_BOUND report before it stops. */
  lemma NotBoundReportedBeforeParentCheck(s: Sim, e: Export, hook: Hook)
    requires !e.bound && e.parent.None?
    ensures var r := RunPhase(Construction, s, e, hook);
            && r.Failure? && r.error.NoParentModule?
            && r.error.errors == s.errors + [Report(NotBoundAfterConstruction, e, None)]
  {
  }

  /** A hook that pushes and pops in balance sees the parent module on
      top, and the wrapper hands the stack back as it found it. */
  lemma RunPhaseBalanced(p: Phase, s: Sim, e: Export, hook: Hook)
    requires Balanced(hook)
    requires e.parent.Some?
    ensures RunPhase(p, s, e, hook).Success?
    ensures RunPhase(p, s, e, hook).value.hierarchy == s.hierarchy
  {
    var s2 := hook(p, Pushed(p, s, e), e);
    assert s2.hierarchy == s.hierarchy + [e.parent.value];
    assert s2.hierarchy[..|s2.hierarchy| - 1] == s.hierarchy;
  }

  /** A hook that only appends makes the whole wrapper only append. */
  lemma RunPhaseAppendOnly(p: Phase, s: Sim, e: Export, hook: Hook)
    requires AppendOnly(hook)
    ensures RunPhase(p, s, e, hook).Success? ==> Extends(s.registry, RunPhase(p, s, e, hook).value.registry)
  {
    if e.parent.Some? {
      assert Extends(Pushed(p, s, e).registry, hook(p, Pushed(p, s, e), e).registry);
    }
  }

  /** With the default (empty) hook, a wrapper changes nothing except that
      the construction wrapper reports NOT_BOUND exactly when the export has
      no interface. */
  lemma DefaultPhase(p: Phase, s: Sim, e: Export)
    requires e.parent.Some?
    ensures RunPhase(p, s, e, NoopHook).Success?
    ensures p == Construction && !e.bound ==>
              RunPhase(p, s, e, NoopHook).value
                == s.(errors := s.errors + [Report(NotBoundAfterConstruction, e, None)])
    ensures p != Construction || e.bound ==> RunPhase(p, s, e, NoopHook).value == s
  {
    var m := e.parent.value;
    var s1 := if p == Construction && !e.bound
              then s.(errors := s.errors + [Report(NotBoundAfterConstruction, e, None)])
              else s;
    assert (s1.hierarchy + [m])[..|s1.hierarchy|] == s1.hierarchy;
  }

  // ---------------------------------------------------------------------------
  // Registry passes
  // ---------------------------------------------------------------------------

  /** The lowest index a pass visits: the watermark for the construction
      phase (read afresh before every step, as the loop condition is), zero
      for the others. */
  function Low(p: Phase, s: Sim): nat {
    if p == Construction then s.registry.watermark else 0
  }

  /** The loop of a pass, from index `i` down to `Low`: each step visits
      the entry at `i` in the registry as it is at that moment. */
  function Sweep(p: Phase, s: Sim, i: int, hook: Hook): (r: Result<Pass, Fault>)
    requires -1 <= i
    ensures p != Construction && r.Success? ==> |r.value.visited| == i + 1
    decreases i + 1
  {
    if i < Low(p, s) then Success(Pass(s, []))
    else if i >= |s.registry.entries| then Failure(IndexOutOfRange(i))
    else
      var e := s.registry.entries[i];
      match RunPhase(p, s, e, hook)
      case Failure(f) => Failure(f)
      case Success(s') =>
        match Sweep(p, s', i - 1, hook)
        case Failure(f) => Failure(f)
        case Success(rest) => Success(Pass(rest.sim, [e] + rest.visited))
  }

  /** Visiting from `i` down to `lo` is visiting `i` first, then the rest. */
  lemma ReverseStep<T>(es: seq<T>, lo: nat, i: nat)
    requires lo <= i < |es|
    ensures Reverse(es[lo..i + 1]) == [es[i]] + Reverse(es[lo..i])
  {
    assert es[lo..i + 1][..i - lo] == es[lo..i];
  }

  /** `Extends` is transitive. */
  lemma ExtendsTrans(a: Registry, b: Registry, c: Registry)
    requires Extends(a, b) && Extends(b, c)
    ensures Extends(a, c)
  {
    assert c.entries[..|a.entries|] == c.entries[..|b.entries|][..|a.entries|];
  }

  /** Under hooks that only append, a sweep from `i` visits exactly the
      entries from `i` down to the low bound as they were when it started,
      each once, in descending order; it never runs past the end, and the
      registry it leaves extends the one it started with. */
  lemma {:induction false} SweepAppendOnly(p: Phase, s: Sim, i: int, hook: Hook)
    requires AppendOnly(hook)
    requires -1 <= i < |s.registry.entries|
    ensures Sweep(p, s, i, hook).Failure? ==> !Sweep(p, s, i, hook).error.IndexOutOfRange?
    ensures Sweep(p, s, i, hook).Success? ==> Extends(s.registry, Sweep(p, s, i, hook).value.sim.registry)
    ensures Sweep(p, s, i, hook).Success? && Low(p, s) <= i + 1 ==>
              Sweep(p, s, i, hook).value.visited == Reverse(s.registry.entries[Low(p, s)..i + 1])
    decreases i + 1
  {
    if i >= Low(p, s) {
      var step := RunPhase(p, s, s.registry.entries[i], hook);
      if step.Success? {
        RunPhaseAppendOnly(p, s, s.registry.entries[i], hook);
        SweepAppendOnly(p, step.value, i - 1, hook);
        assert SweepSound(p, step.value, i - 1, hook);
        SweepStep(p, s, i, hook, step.value);
      }
    }
  }

  /** What `SweepAppendOnly` says about the sweep from `i`. */
  predicate SweepSound(p: Phase, s: Sim, i: int, hook: Hook)
    requires -1 <= i < |s.registry.entries|
  {
    var r := Sweep(p, s, i, hook);
    && (r.Failure? ==> !r.error.IndexOutOfRange?)
    && (r.Success? ==> Extends(s.registry, r.value.sim.registry))
    && (r.Success? && Low(p, s) <= i + 1 ==> r.value.visited == Reverse(s.registry.entries[Low(p, s)..i + 1]))
  }

  /** One step of `SweepAppendOnly`: when the visit of entry `i` only
      appends and the rest of the sweep is sound, so is the whole sweep. */
  lemma SweepStep(p: Phase, s: Sim, i: int, hook: Hook, s': Sim)
    requires Low(p, s) <= i < |s.registry.entries|
    requires RunPhase(p, s, s.registry.entries[i], hook) == Success(s')
    requires Extends(s.registry, s'.registry)
    requires SweepSound(p, s', i - 1, hook)
    ensures SweepSound(p, s, i, hook)
  {
    var es := s.registry.entries;
    var lo := Low(p, s);
    var rest := Sweep(p, s', i - 1, hook);
    if rest.Failure? {
      assert Sweep(p, s, i, hook) == Failure(rest.error);
    } else {
      assert Sweep(p, s, i, hook) == Success(Pass(rest.value.sim, [es[i]] + rest.value.visited));
      ExtendsTrans(s.registry, s'.registry, rest.value.sim.registry);
      var grown := s'.registry.entries;
      assert grown[lo..i] == es[lo..i] by {
        forall k | lo <= k < i ensures grown[k] == es[k] {
          assert grown[..|es|][k] == es[k];
        }
      }
      ReverseStep(es, lo, i);
    }
  }

  /** `construction_done`: idle (true, nothing changed) when the watermark
      equals the size; otherwise the sweep runs from the size at entry down
      to the watermark, the watermark is set to the size the registry has
      afterwards, and the answer is "did work" (false). */
  function ConstructionDone(s: Sim, hook: Hook): (r: Result<(bool, Pass), Fault>)
    ensures s.registry.watermark == |s.registry.entries| ==> r == Success((true, Pass(s, [])))
    ensures s.registry.watermark != |s.registry.entries| && r.Success? ==>
              && !r.value.0
              && r.value.1.sim.registry.watermark == |r.value.1.sim.registry.entries|
  {
    var n := |s.registry.entries|;
    if s.registry.watermark == n then Success((true, Pass(s, [])))
    else
      var pass :- Sweep(Construction, s, n - 1, hook);
      var reg := pass.sim.registry;
      Success((false, Pass(pass.sim.(registry := reg.(watermark := |reg.entries|)), pass.visited)))
  }

  /** A pass that did work leaves nothing pending: the very next call,
      with no insertion in between, is idle. */
  lemma ConstructionDoneSettles(s: Sim, hook: Hook)
    requires ConstructionDone(s, hook).Success?
    ensures var st := ConstructionDone(s, hook).value.1.sim;
            ConstructionDone(st, hook) == Success((true, Pass(st, [])))
  {
  }

  /** Under hooks that only append: a working call visits exactly the
      entries from the end at entry down to the watermark, in descending
      order, each once, never one below the watermark; and everything the
      hooks appended meanwhile is counted as done without being visited. */
  lemma ConstructionDoneVisits(s: Sim, hook: Hook)
    requires AppendOnly(hook)
    requires s.registry.watermark < |s.registry.entries|
    requires ConstructionDone(s, hook).Success?
    ensures var r := ConstructionDone(s, hook).value;
            var n := |s.registry.entries|;
            && !r.0
            && r.1.visited == Reverse(s.registry.entries[s.registry.watermark..])
            && n <= |r.1.sim.registry.entries|
            && r.1.sim.registry.entries[..n] == s.registry.entries
            && r.1.sim.registry.watermark == |r.1.sim.registry.entries|
  {
    var n := |s.registry.entries|;
    SweepAppendOnly(Construction, s, n - 1, hook);
    assert s.registry.entries[s.registry.watermark..n] == s.registry.entries[s.registry.watermark..];
  }

  /** `elaboration_done`, `start_simulation` and `simulation_done`: one
      sweep over every entry, from the last down to index zero. */
  function FullPass(p: Phase, s: Sim, hook: Hook): (r: Result<Pass, Fault>)
    requires p != Construction
    ensures r.Success? ==> |r.value.visited| == |s.registry.entries|
    ensures r.Success? && 0 < |s.registry.entries| ==>
              r.value.visited[0] == s.registry.entries[|s.registry.entries| - 1]
    ensures |s.registry.entries| == 0 ==> r == Success(Pass(s, []))
  {
    Sweep(p, s, |s.registry.entries| - 1, hook)
  }

  /** `elaboration_done`: the end-of-elaboration wrapper of every entry,
      starting with the last. */
  function ElaborationDone(s: Sim, hook: Hook): (r: Result<Pass, Fault>)
    ensures r.Success? ==> |r.value.visited| == |s.registry.entries|
    ensures r.Success? && 0 < |s.registry.entries| ==>
              r.value.visited[0] == s.registry.entries[|s.registry.entries| - 1]
    ensures |s.registry.entries| == 0 ==> r == Success(Pass(s, []))
  {
    FullPass(Elaboration, s, hook)
  }

  /** `start_simulation`: the start-of-simulation wrapper of every entry,
      starting with the last. */
  function StartSimulation(s: Sim, hook: Hook): (r: Result<Pass, Fault>)
    ensures r.Success? ==> |r.value.visited| == |s.registry.entries|
    ensures r.Success? && 0 < |s.registry.entries| ==>
              r.value.visited[0] == s.registry.entries[|s.registry.entries| - 1]
    ensures |s.registry.entries| == 0 ==> r == Success(Pass(s, []))
  {
    FullPass(StartOfSimulation, s, hook)
  }

  /** `simulation_done`: the end-of-simulation wrapper of every entry,
      starting with the last. */
  function SimulationDone(s: Sim, hook: Hook): (r: Result<Pass, Fault>)
    ensures r.Success? ==> |r.value.visited| == |s.registry.entries|
    ensures r.Success? && 0 < |s.registry.entries| ==>
              r.value.visited[0] == s.registry.entries[|s.registry.entries| - 1]
    ensures |s.registry.entries| == 0 ==> r == Success(Pass(s, []))
  {
    FullPass(EndOfSimulation, s, hook)
  }

  /** Under hooks that only append, a full pass visits every entry once,
      from the last to the first. */
  lemma FullPassVisitsAll(p: Phase, s: Sim, hook: Hook)
    requires p != Construction
    requires AppendOnly(hook)
    ensures FullPass(p, s, hook).Failure? ==> !FullPass(p, s, hook).error.IndexOutOfRange?
    ensures FullPass(p, s, hook).Success? ==> FullPass(p, s, hook).value.visited == Reverse(s.registry.entries)
  {
    SweepAppendOnly(p, s, |s.registry.entries| - 1, hook);
    assert s.registry.entries[0..|s.registry.entries|] == s.registry.entries;
  }

  /** Under hooks that only append, each of `elaboration_done`,
      `start_simulation` and `simulation_done` runs its wrapper on every
      entry exactly once, from the last to the first. */
  lemma LaterPassesVisitAll(s: Sim, hook: Hook)
    requires AppendOnly(hook)
    ensures ElaborationDone(s, hook).Success? ==> ElaborationDone(s, hook).value.visited == Reverse(s.registry.entries)
    ensures StartSimulation(s, hook).Success? ==> StartSimulation(s, hook).value.visited == Reverse(s.registry.entries)
    ensures SimulationDone(s, hook).Success? ==> SimulationDone(s, hook).value.visited == Reverse(s.registry.entries)
  {
    FullPassVisitsAll(Elaboration, s, hook);
    FullPassVisitsAll(StartOfSimulation, s, hook);
    FullPassVisitsAll(EndOfSimulation, s, hook);
  }

  /** A hook that pushes and pops in balance sees the parent module on
      top, and every wrapper hands the stack back as it found it, so a whole
      pass does too. */
  lemma {:induction false} SweepKeepsHierarchy(p: Phase, s: Sim, i: int, hook: Hook)
    requires Balanced(hook)
    requires -1 <= i
    ensures Sweep(p, s, i, hook).Success? ==> Sweep(p, s, i, hook).value.sim.hierarchy == s.hierarchy
    decreases i + 1
  {
    if Low(p, s) <= i < |s.registry.entries| {
      var step := RunPhase(p, s, s.registry.entries[i], hook);
      if step.Success? {
        RunPhaseBalanced(p, s, s.registry.entries[i], hook);
        SweepKeepsHierarchy(p, step.value, i - 1, hook);
      }
    }
  }

  // ---------------------------------------------------------------------------
  // Exports appended during a construction pass
  // ---------------------------------------------------------------------------

  /** A hook whose construction body, run for export `owner`, constructs
      the export `spawned` (which registers itself); every other body is
      empty. */
  function SpawnOn(owner: ExportId, spawned: Export): Hook {
    (p: Phase, s: Sim, e: Export) => if p == Construction && e.id == owner then Insert(s, spawned) else s
  }

  /** Sample exports of a module with identity 0. */
  const SampleA: Export := Export(1, "top.a", "sc_export", true, Some(0))
  const SampleB: Export := Export(2, "top.b", "sc_export", true, Some(0))
  const SampleC: Export := Export(3, "top.c", "sc_export", true, Some(0))

  /** A registry holding `entries` during elaboration. */
  function Elaborating(entries: seq<Export>, watermark: nat): Sim {
    Sim(Registry(entries, watermark), [], false, false, [])
  }

  /** As written, an export appended by a hook during a construction pass
      is never visited: the loop's start was fixed on entry, the watermark
      then jumps to the grown size, and the next call is idle. Here the
      body of `a` constructs `b`; `b` never gets its construction phase. */
  lemma AppendedDuringPassIsSkipped()
    ensures var hook := SpawnOn(SampleA.id, SampleB);
            var first := ConstructionDone(Elaborating([SampleA], 0), hook);
            && first.Success?
            && first.value.1.visited == [SampleA]
            && first.value.1.sim.registry == Registry([SampleA, SampleB], 2)
            && ConstructionDone(first.value.1.sim, hook) == Success((true, Pass(first.value.1.sim, [])))
  {
    var hook := SpawnOn(SampleA.id, SampleB);
    var s0 := Elaborating([SampleA], 0);
    SpawnRunsOnce();
    var s1 := RunPhase(Construction, s0, SampleA, hook);
    assert s0.registry.entries[0] == SampleA;
    assert Sweep(Construction, s1.value, -1, hook) == Success(Pass(s1.value, []));
    assert [SampleA] + [] == [SampleA];
    assert Sweep(Construction, s0, 0, hook) == Success(Pass(s1.value, [SampleA]));
  }

  /** The visit of `a` in the example: its body appends `b`. */
  lemma SpawnRunsOnce()
    ensures RunPhase(Construction, Elaborating([SampleA], 0), SampleA, SpawnOn(SampleA.id, SampleB))
              == Success(Elaborating([SampleA, SampleB], 0))
  {
    var pushed := Pushed(Construction, Elaborating([SampleA], 0), SampleA);
    assert pushed == Sim(Registry([SampleA], 0), [0], false, false, []);
    assert SpawnOn(SampleA.id, SampleB)(Construction, pushed, SampleA) == Insert(pushed, SampleB);
    assert Insert(pushed, SampleB) == Sim(Registry([SampleA, SampleB], 0), [0], false, false, []);
  }

  /** `construction_done` with the watermark moved only over the entries
      the pass set out to visit (the size on entry), so that exports
      appended meanwhile stay pending for the next call. */
  function ConstructionDoneFixed(s: Sim, hook: Hook): (r: Result<(bool, Pass), Fault>)
    ensures s.registry.watermark == |s.registry.entries| ==> r == Success((true, Pass(s, [])))
    ensures s.registry.watermark != |s.registry.entries| && r.Success? ==>
              && !r.value.0
              && r.value.1.sim.registry.watermark <= |s.registry.entries|
              && r.value.1.sim.registry.watermark <= |r.value.1.sim.registry.entries|
  {
    var n := |s.registry.entries|;
    if s.registry.watermark == n then Success((true, Pass(s, [])))
    else
      var pass :- Sweep(Construction, s, n - 1, hook);
      var reg := pass.sim.registry;
      var mark := if n <= |reg.entries| then n else |reg.entries|;
      Success((false, Pass(pass.sim.(registry := reg.(watermark := mark)), pass.visited)))
  }

  lemma ReverseAppend<T>(a: seq<T>, b: seq<T>)
    ensures Reverse(a + b) == Reverse(b) + Reverse(a)
  {
  }

  /** Under hooks that only append, a working call of the corrected pass
      visits the entries from the end at entry down to the watermark, keeps
      them as a prefix, and moves the watermark to the size at entry. */
  lemma FixedFirstRound(s: Sim, hook: Hook)
    requires AppendOnly(hook)
    requires s.registry.watermark < |s.registry.entries|
    requires ConstructionDoneFixed(s, hook).Success?
    ensures var first := ConstructionDoneFixed(s, hook).value.1;
            var n := |s.registry.entries|;
            && first.visited == Reverse(s.registry.entries[s.registry.watermark..])
            && n <= |first.sim.registry.entries|
            && first.sim.registry.entries[..n] == s.registry.entries
            && first.sim.registry.watermark == n
  {
    var n := |s.registry.entries|;
    SweepAppendOnly(Construction, s, n - 1, hook);
    assert s.registry.entries[s.registry.watermark..n] == s.registry.entries[s.registry.watermark..];
  }

  /** Under hooks that only append, two calls of the corrected pass visit
      every entry from the original watermark up to the size after the
      first call exactly once: the first call the original entries, the
      second exactly those its hooks appended, highest index first. */
  lemma FixedRoundsVisitEachOnce(s: Sim, hook: Hook)
    requires AppendOnly(hook)
    requires s.registry.watermark < |s.registry.entries|
    requires ConstructionDoneFixed(s, hook).Success?
    requires ConstructionDoneFixed(ConstructionDoneFixed(s, hook).value.1.sim, hook).Success?
    ensures var first := ConstructionDoneFixed(s, hook).value.1;
            && first.visited == Reverse(s.registry.entries[s.registry.watermark..])
            && s.registry.watermark <= |first.sim.registry.entries|
            && ConstructionDoneFixed(first.sim, hook).value.1.visited + first.visited
                 == Reverse(first.sim.registry.entries[s.registry.watermark..])
  {
    var n := |s.registry.entries|;
    var wm := s.registry.watermark;
    FixedFirstRound(s, hook);
    var first := ConstructionDoneFixed(s, hook).value.1;
    var e1 := first.sim.registry.entries;
    assert e1[wm..n] == s.registry.entries[wm..];
    SecondRound(first.sim, n, hook);
    assert e1[wm..] == e1[wm..n] + e1[n..];
    ReverseAppend(e1[wm..n], e1[n..]);
  }

  /** The second call of the corrected pass, from the watermark the first
      left: it visits exactly the entries past that watermark. */
  lemma SecondRound(s: Sim, n: nat, hook: Hook)
    requires AppendOnly(hook)
    requires s.registry.watermark == n <= |s.registry.entries|
    requires ConstructionDoneFixed(s, hook).Success?
    ensures ConstructionDoneFixed(s, hook).value.1.visited == Reverse(s.registry.entries[n..])
  {
    if n < |s.registry.entries| {
      FixedFirstRound(s, hook);
    }
  }

  // ---------------------------------------------------------------------------
  // Removal and the watermark
  // ---------------------------------------------------------------------------

  /** As written, removal can move an export the construction phase has
      not handled yet below the watermark: with `a` and `b` handled and `c`
      pending, removing `a` moves `c` into slot 0, and the next call is idle
      whatever the hooks do, so `c` never gets its construction phase. */
  lemma RemoveCanHidePendingExport(hook: Hook)
    ensures var r := Remove(Elaborating([SampleA, SampleB, SampleC], 2), SampleA);
            && r.Success?
            && r.value.registry == Registry([SampleC, SampleB], 2)
            && ConstructionDone(r.value, hook) == Success((true, Pass(r.value, [])))
  {
    var es := [SampleA, SampleB, SampleC];
    FirstOfThree();
    assert Vectors.SwapRemoveAt(es, 0) == [SampleC, SampleB];
  }

  /** As written, removal can also leave the watermark past the end: with
      the only export handled and then removed, the next call sees a
      watermark different from the size, visits nothing, and still answers
      "did work". */
  lemma RemoveCanLeaveWatermarkPastEnd(hook: Hook)
    ensures var r := Remove(Elaborating([SampleA], 1), SampleA);
            && r.Success?
            && r.value.registry == Registry([], 1)
            && r.value.registry.watermark > |r.value.registry.entries|
            && ConstructionDone(r.value, hook) == Success((false, Pass(Elaborating([], 0), [])))
  {
    assert LastIndexOf([SampleA], SampleA.id) == 0;
    assert Vectors.SwapRemoveAt([SampleA], 0) == [];
  }

  /** In the example, the export removed sits in slot 0. */
  lemma FirstOfThree()
    ensures LastIndexOf([SampleA, SampleB, SampleC], SampleA.id) == 0
  {
    var es := [SampleA, SampleB, SampleC];
    assert es[..2] == [SampleA, SampleB];
    assert LastIndexOf(es[..2], SampleA.id) == 0 by {
      assert es[..2][..1] == [SampleA];
    }
  }

  /** The watermark does not exceed the number of entries. */
  predicate WatermarkValid(r: Registry) {
    r.watermark <= |r.entries|
  }

  /** Removal that keeps handled and pending entries apart: an export below
      the watermark is replaced by the last handled one, whose slot then
      takes the last entry, and the watermark drops by one; an export at or
      above it is swapped with the last entry as before. */
  function RemoveKeepingWatermark(s: Sim, e: Export): (r: Result<Sim, Report>)
    requires WatermarkValid(s.registry)
    ensures r.Failure? <==> Remove(s, e).Failure?
    ensures r.Failure? ==> r.error == Report(NotRegistered, e, None)
    ensures |s.registry.entries| == 0 ==> r == Success(s)
    ensures r.Success? ==> r.value == s.(registry := r.value.registry) && WatermarkValid(r.value.registry)
    ensures r.Success? && 0 < |s.registry.entries| ==> |r.value.registry.entries| == |s.registry.entries| - 1
  {
    var es := s.registry.entries;
    var wm := s.registry.watermark;
    if |es| == 0 then Success(s)
    else
      var i := LastIndexOf(es, e.id);
      if i == -1 then Failure(Report(NotRegistered, e, None))
      else if i < wm then Success(s.(registry := Registry(Refill(es, wm, i), wm - 1)))
      else Success(s.(registry := s.registry.(entries := Vectors.SwapRemoveAt(es, i))))
  }

  /** The corrected removal deletes the last entry with the export's
      identity and keeps the handled and the pending entries apart: the
      entry leaves the part it was in, and the other part keeps its
      entries, in some order. */
  lemma RemoveKeepingWatermarkSeparates(s: Sim, e: Export)
    requires WatermarkValid(s.registry)
    requires 0 < |s.registry.entries|
    requires RemoveKeepingWatermark(s, e).Success?
    ensures var i := LastIndexOf(s.registry.entries, e.id);
            0 <= i && s.registry.entries[i].id == e.id
    ensures var es := s.registry.entries;
            var wm := s.registry.watermark;
            var i := LastIndexOf(es, e.id);
            var r := RemoveKeepingWatermark(s, e).value.registry;
            0 <= i < wm ==>
              && r.watermark == wm - 1
              && multiset(r.entries[..wm - 1]) == multiset(es[..wm]) - multiset{es[i]}
              && multiset(r.entries[wm - 1..]) == multiset(es[wm..])
    ensures var es := s.registry.entries;
            var wm := s.registry.watermark;
            var i := LastIndexOf(es, e.id);
            var r := RemoveKeepingWatermark(s, e).value.registry;
            wm <= i ==>
              && r.watermark == wm
              && r.entries[..wm] == es[..wm]
              && multiset(r.entries[wm..]) == multiset(es[wm..]) - multiset{es[i]}
  {
    var i := LastIndexOf(s.registry.entries, e.id);
    if i < s.registry.watermark {
      HandledCase(s, e, i);
    } else {
      PendingCase(s, e, i);
    }
  }

  /** The handled case of `RemoveKeepingWatermarkSeparates`. */
  lemma HandledCase(s: Sim, e: Export, i: int)
    requires WatermarkValid(s.registry)
    requires 0 < |s.registry.entries|
    requires i == LastIndexOf(s.registry.entries, e.id)
    requires 0 <= i < s.registry.watermark
    ensures var es := s.registry.entries;
            var wm := s.registry.watermark;
            var r := RemoveKeepingWatermark(s, e).value.registry;
            && r.watermark == wm - 1
            && multiset(r.entries[..wm - 1]) == multiset(es[..wm]) - multiset{es[i]}
            && multiset(r.entries[wm - 1..]) == multiset(es[wm..])
  {
    var es := s.registry.entries;
    var wm := s.registry.watermark;
    assert RemoveKeepingWatermark(s, e).value.registry == Registry(Refill(es, wm, i), wm - 1);
    HandledRemoval(es, wm, i);
  }

  /** The pending case of `RemoveKeepingWatermarkSeparates`. */
  lemma PendingCase(s: Sim, e: Export, i: int)
    requires WatermarkValid(s.registry)
    requires 0 < |s.registry.entries|
    requires i == LastIndexOf(s.registry.entries, e.id)
    requires 0 <= s.registry.watermark <= i
    ensures var es := s.registry.entries;
            var wm := s.registry.watermark;
            var r := RemoveKeepingWatermark(s, e).value.registry;
            && r.watermark == wm
            && r.entries[..wm] == es[..wm]
            && multiset(r.entries[wm..]) == multiset(es[wm..]) - multiset{es[i]}
  {
    var es := s.registry.entries;
    var wm := s.registry.watermark;
    assert RemoveKeepingWatermark(s, e).value.registry == Registry(Vectors.SwapRemoveAt(es, i), wm);
    PendingRemoval(es, wm, i);
  }

  /** Removal of handled entry `i`: the last handled entry is written over
      it, and the slot it leaves is refilled from the end. */
  function Refill(es: seq<Export>, wm: nat, i: nat): (r: seq<Export>)
    requires i < wm <= |es|
    ensures |r| == |es| - 1
  {
    Vectors.SwapRemoveAt(es[i := es[wm - 1]], wm - 1)
  }

  /** Removing a pending entry leaves the handled prefix alone. */
  lemma PendingRemoval(es: seq<Export>, wm: nat, i: nat)
    requires wm <= i < |es|
    ensures var r := Vectors.SwapRemoveAt(es, i);
            && wm <= |r|
            && r[..wm] == es[..wm]
            && multiset(r[wm..]) == multiset(es[wm..]) - multiset{es[i]}
  {
    var r := Vectors.SwapRemoveAt(es, i);
    assert r[..wm] == es[..wm];
    assert r == r[..wm] + r[wm..];
    assert es == es[..wm] + es[wm..];
    assert es[i] == es[wm..][i - wm];
    Cancel(multiset(es[..wm]), multiset(es[wm..]), multiset(r[wm..]), es[i]);
  }

  /** Multiset bookkeeping: taking one copy of `x` out of `a + b`, where
      `x` is in `b`, leaves `a` and `b` less that copy. */
  lemma Cancel<T>(a: multiset<T>, b: multiset<T>, c: multiset<T>, x: T)
    requires x in b
    requires a + c == (a + b) - multiset{x}
    ensures c == b - multiset{x}
  {
    forall y ensures c[y] == (b - multiset{x})[y] {
      assert (a + c)[y] == ((a + b) - multiset{x})[y];
    }
  }

  /** Removing a handled entry by refilling its slot from the last handled
      one keeps the pending entries, as a multiset, pending. */
  lemma HandledRemoval(es: seq<Export>, wm: nat, i: nat)
    requires i < wm <= |es|
    ensures var r := Refill(es, wm, i);
            && wm - 1 <= |r|
            && multiset(r[..wm - 1]) == multiset(es[..wm]) - multiset{es[i]}
            && multiset(r[wm - 1..]) == multiset(es[wm..])
  {
    var r := Refill(es, wm, i);
    HandledPrefix(es, wm, i);
    HandledTotal(es, wm, i);
    Split(r, wm - 1);
    Split(es, wm);
    assert es[i] == es[..wm][i];
    CancelLeft(multiset(es[..wm]), multiset(es[wm..]), multiset(r[wm - 1..]), es[i]);
  }

  /** A sequence is, as a multiset, its prefix and its suffix together. */
  lemma Split<T>(xs: seq<T>, k: nat)
    requires k <= |xs|
    ensures multiset(xs) == multiset(xs[..k]) + multiset(xs[k..])
  {
    assert xs == xs[..k] + xs[k..];
  }

  /** Refilling and shrinking loses exactly the removed entry. */
  lemma HandledTotal(es: seq<Export>, wm: nat, i: nat)
    requires i < wm <= |es|
    ensures multiset(Refill(es, wm, i)) == multiset(es) - multiset{es[i]}
  {
    var moved := es[i := es[wm - 1]];
    assert multiset(moved) == multiset(es) - multiset{es[i]} + multiset{es[wm - 1]};
    assert moved[wm - 1] == es[wm - 1];
  }

  /** The handled part after refilling: the handled entries less the one removed. */
  lemma HandledPrefix(es: seq<Export>, wm: nat, i: nat)
    requires i < wm <= |es|
    ensures var r := Refill(es, wm, i);
            && wm - 1 <= |r|
            && multiset(r[..wm - 1]) == multiset(es[..wm]) - multiset{es[i]}
  {
    var r := Refill(es, wm, i);
    var handled := Vectors.SwapRemoveAt(es[..wm], i);
    forall k | 0 <= k < wm - 1 ensures r[k] == handled[k] {
    }
    assert r[..wm - 1] == handled;
  }

  /** Multiset bookkeeping: when `x` is in `a`, taking `a` less one copy of
      `x` out of `a + b` less that copy leaves `b`. */
  lemma CancelLeft<T>(a: multiset<T>, b: multiset<T>, c: multiset<T>, x: T)
    requires x in a
    requires (a - multiset{x}) + c == (a + b) - multiset{x}
    ensures c == b
  {
    forall y ensures c[y] == b[y] {
      assert ((a - multiset{x}) + c)[y] == ((a + b) - multiset{x})[y];
    }
  }
}

=== FILE: naming.dfy ===
/** Names of hierarchical objects: the leaf-name check applied by the named
    constructor, the `{n}` names made up for objects constructed without a
    name, and the leaf part of a dotted path name. */
module Naming {

  /** SC_HIERARCHY_CHAR, the separator between the levels of a path name. */
  const HierarchyChar: char := '.'

  /** What an illegal character of a requested leaf name is replaced by. */
  const Filler: char := '_'

  /** `isspace` in the "C" locale: blank, tab, newline, vertical tab, form
      feed and carriage return (codes 9 to 13 and 32). */
  predicate IsSpace(c: char) {
    c == ' ' || ('\t' <= c <= '\r')
  }

  /** A character a leaf name may not contain. */
  predicate IllegalChar(c: char) {
    c == HierarchyChar || IsSpace(c)
  }

  /** A leaf name with no separator and no white space. */
  predicate LegalName(s: seq<char>) {
    forall i :: 0 <= i < |s| ==> !IllegalChar(s[i])
  }

  /** The leaf name the named constructor actually uses: every illegal
      character replaced by the filler, every other character kept. */
  function Sanitize(nm: seq<char>): (r: seq<char>)
    ensures |r| == |nm|
    ensures forall i :: 0 <= i < |nm| ==> r[i] == (if IllegalChar(nm[i]) then Filler else nm[i])
    ensures LegalName(r)
    decreases |nm|
  {
    if |nm| == 0 then []
    else [if IllegalChar(nm[0]) then Filler else nm[0]] + Sanitize(nm[1..])
  }

  /** The copying loop of the named constructor: it builds the substituted
      buffer character by character and remembers whether any character
      had to be replaced, which is what decides the warning. */
  method SubstituteIllegal(nm: seq<char>) returns (buf: seq<char>, hasIllegal: bool)
    ensures buf == Sanitize(nm)
    ensures hasIllegal <==> !LegalName(nm)
    ensures hasIllegal <==> buf != nm
  {
    buf := [];
    hasIllegal := false;
    var k := 0;
    while k < |nm|
      invariant 0 <= k <= |nm|
      invariant |buf| == k
      invariant forall j :: 0 <= j < k ==> buf[j] == (if IllegalChar(nm[j]) then Filler else nm[j])
      invariant hasIllegal <==> exists j :: 0 <= j < k && IllegalChar(nm[j])
    {
      if IllegalChar(nm[k]) {
        hasIllegal := true;
        buf := buf + [Filler];
      } else {
        buf := buf + [nm[k]];
      }
      k := k + 1;
    }
    SanitizeChangesIffIllegal(nm);
  }

  /** The text of the illegal-characters warning. */
  function SubstitutionMessage(original: seq<char>, substituted: seq<char>): seq<char> {
    original + " substituted by " + substituted
  }

  /** Sanitizing changes a name exactly when the name holds an illegal
      character, so the warning is issued if and only if something was
      replaced. */
  lemma SanitizeChangesIffIllegal(nm: seq<char>)
    ensures Sanitize(nm) != nm <==> !LegalName(nm)
  {
    if !LegalName(nm) {
      var i :| 0 <= i < |nm| && IllegalChar(nm[i]);
      assert Sanitize(nm)[i] == Filler != nm[i];
    }
  }

  /** A sanitized name is left alone by a second sanitizing. */
  lemma SanitizeIdempotent(nm: seq<char>)
    ensures Sanitize(Sanitize(nm)) == Sanitize(nm)
  {
    SanitizeChangesIffIllegal(Sanitize(nm));
  }

  // ---------------------------------------------------------------------------
  // Generated names `{n}`.
  // ---------------------------------------------------------------------------

  /** The character of a decimal digit. */
  function DigitChar(d: nat): (c: char)
    requires d < 10
    ensures '0' <= c <= '9'
  {
    ('0' as int + d) as char
  }

  /** The value of a decimal digit character. */
  function DigitValue(c: char): (d: nat)
    requires '0' <= c <= '9'
    ensures d < 10
  {
    c as int - '0' as int
  }

  predicate AllDigits(s: seq<char>) {
    forall i :: 0 <= i < |s| ==> '0' <= s[i] <= '9'
  }

  /** `%d` of a non-negative number: its decimal digits, most significant
      first, without leading zeros. */
  function Decimal(n: nat): (r: seq<char>)
    ensures 1 <= |r|
    ensures AllDigits(r)
    ensures n >= 10 ==> 2 <= |r|
    ensures r[0] == '0' ==> n == 0
    decreases n
  {
    if n < 10 then [DigitChar(n)] else Decimal(n / 10) + [DigitChar(n % 10)]
  }

  /** Reading decimal digits back as a number. */
  function DecimalValue(s: seq<char>): nat
    requires AllDigits(s)
    decreases |s|
  {
    if |s| == 0 then 0 else DecimalValue(s[..|s| - 1]) * 10 + DigitValue(s[|s| - 1])
  }

  /** Printing a number in decimal and reading it back gives the number. */
  lemma {:induction false} DecimalRoundTrip(n: nat)
    ensures DecimalValue(Decimal(n)) == n
    decreases n
  {
    var s := Decimal(n);
    if n < 10 {
      assert s[..0] == [];
    } else {
      DecimalRoundTrip(n / 10);
      assert s[..|s| - 1] == Decimal(n / 10);
      assert DigitValue(s[|s| - 1]) == n % 10;
    }
  }

  /** The name made up by `sc_object_newname`: the counter in braces, and
      the counter advanced by one. */
  function NewName(counter: nat): (r: (seq<char>, nat))
    ensures r.1 == counter + 1
    ensures 3 <= |r.0| && r.0[0] == '{' && r.0[|r.0| - 1] == '}'
    ensures r.0[1..|r.0| - 1] == Decimal(counter)
    ensures LegalName(r.0)
  {
    ("{" + Decimal(counter) + "}", counter + 1)
  }

  /** Different counter values give different generated names. */
  lemma NewNameInjective(a: nat, b: nat)
    ensures NewName(a).0 == NewName(b).0 ==> a == b
  {
    if NewName(a).0 == NewName(b).0 {
      DecimalRoundTrip(a);
      DecimalRoundTrip(b);
    }
  }

  // ---------------------------------------------------------------------------
  // basename
  // ---------------------------------------------------------------------------

  /** The part of a path name after its last separator, or the whole name
      when it has no separator: the longest suffix free of separators. */
  function Basename(name: seq<char>): (r: seq<char>)
    ensures |r| <= |name| && r == name[|name| - |r|..]
    ensures HierarchyChar !in r
    ensures |r| < |name| ==> name[|name| - |r| - 1] == HierarchyChar
    decreases |name|
  {
    if |name| == 0 then []
    else
      var last := name[|name| - 1];
      if last == HierarchyChar then []
      else
        var pre := name[..|name| - 1];
        var b := Basename(pre);
        assert name[|name| - |b| - 1..] == pre[|pre| - |b|..] + [last];
        b + [last]
  }

  /** A name without any separator is its own basename. */
  lemma BasenameOfLeaf(name: seq<char>)
    requires HierarchyChar !in name
    ensures Basename(name) == name
  {
  }

  /** The basename of `parent.leaf` is `leaf` whenever the leaf has no
      separator: the leaf of a path built by the hierarchy is recovered. */
  lemma {:induction false} BasenameOfPath(parent: seq<char>, leaf: seq<char>)
    requires HierarchyChar !in leaf
    ensures Basename(parent + [HierarchyChar] + leaf) == leaf
    decreases |leaf|
  {
    var name := parent + [HierarchyChar] + leaf;
    if |leaf| == 0 {
      assert name[|name| - 1] == HierarchyChar;
    } else {
      var pre := leaf[..|leaf| - 1];
      BasenameOfPath(parent, pre);
      assert name[..|name| - 1] == parent + [HierarchyChar] + pre;
      assert name[|name| - 1] == leaf[|leaf| - 1];
      assert leaf == pre + [leaf[|leaf| - 1]];
    }
  }
}

=== FILE: object_tree.dfy ===
/** The hierarchical object layer (sc_object): every object has a path name,
    a parent (the object that was active when it was constructed, or none),
    a list of child objects, a list of child events and a lazily allocated
    attribute bag. Objects live in an arena addressed by stable ids; the
    simulation context owns the directory from path names to objects, the
    root's own child lists (for objects without a parent), the currently
    active object and the counter of generated names. */
module ObjectTree {
  import opened Outcomes
  import Naming
  import Vectors
  import Attributes

  type ObjectId = nat
  type EventId = nat
  type Path = seq<char>

  /** The object manager's table from path name to object. */
  type Directory = map<Path, ObjectId>

  /** The object manager's `create_name`: turns a requested leaf name, in
      the context of the path of the active object (none at the top level),
      into the full path name of the new object. How it makes the name
      unique is not part of this model; only its promises are
      (`ResolvesFresh`, `KeepsFreePaths`). */
  type NameResolver = (Directory, Option<Path>, seq<char>) -> Path

  /** The resolved name is never one the directory already holds. */
  ghost predicate ResolvesFresh(resolve: NameResolver) {
    forall d: Directory, parent: Option<Path>, leaf: seq<char> :: resolve(d, parent, leaf) !in d
  }

  /** `<parent>.<leaf>`, or the leaf alone at the top level. */
  function PlainPath(parent: Option<Path>, leaf: seq<char>): Path {
    match parent
    case None => leaf
    case Some(pp) => pp + [Naming.HierarchyChar] + leaf
  }

  /** The naming rule of the hierarchy: a leaf whose plain path is still
      free gets that path; only a clash makes the resolver choose another. */
  ghost predicate KeepsFreePaths(resolve: NameResolver) {
    forall d: Directory, parent: Option<Path>, leaf: seq<char> ::
      PlainPath(parent, leaf) !in d ==> resolve(d, parent, leaf) == PlainPath(parent, leaf)
  }

  datatype Node = Node(
    name: Path,
    parent: Option<ObjectId>,
    childObjects: seq<ObjectId>,
    childEvents: seq<EventId>,
    attributes: Attributes.Bag)

  /** A named event only matters here through its parent link. */
  datatype Event = Event(parent: Option<ObjectId>)

  datatype Warning = IllegalCharacters(message: seq<char>)

  /** The simulation context as far as the object layer sees it. */
  datatype World = World(
    objects: map<ObjectId, Node>,
    events: map<EventId, Event>,
    directory: Directory,
    rootObjects: seq<ObjectId>,
    rootEvents: seq<EventId>,
    active: Option<ObjectId>,
    nameCounter: nat,
    warnings: seq<Warning>)

  /** The active object, if any, is a live object. */
  predicate ActiveIsLive(w: World) {
    w.active.Some? ==> w.active.value in w.objects
  }

  /** No list and no directory entry refers to `id`: it is not in use. */
  predicate Unreferenced(w: World, id: ObjectId) {
    && id !in w.rootObjects
    && id !in w.directory.Values
    && forall o :: o in w.objects ==> id !in w.objects[o].childObjects
  }

  /** Every directory entry names an object whose name is that entry. */
  predicate DirectoryConsistent(w: World) {
    forall p :: p in w.directory ==> w.directory[p] in w.objects && w.objects[w.directory[p]].name == p
  }

  /** Every live object is entered in the directory under its own name. */
  predicate Registered(w: World) {
    forall o :: o in w.objects ==> w.objects[o].name in w.directory && w.directory[w.objects[o].name] == o
  }

  /** While every live object is registered, no two of them share a name. */
  lemma RegisteredNamesDistinct(w: World, a: ObjectId, b: ObjectId)
    requires Registered(w)
    requires a in w.objects && b in w.objects && a != b
    ensures w.objects[a].name != w.objects[b].name
  {
  }

  // ---------------------------------------------------------------------------
  // Child lists
  // ---------------------------------------------------------------------------

  /** `add_child_object`: append, with no check for a copy already there. */
  function AddChildObject(w: World, holder: ObjectId, child: ObjectId): (r: World)
    requires holder in w.objects
    ensures r.objects.Keys == w.objects.Keys
    ensures r.objects[holder].childObjects == w.objects[holder].childObjects + [child]
    ensures r.objects[holder] == w.objects[holder].(childObjects := r.objects[holder].childObjects)
    ensures r == w.(objects := r.objects)
    ensures forall o :: o in w.objects && o != holder ==> r.objects[o] == w.objects[o]
  {
    var n := w.objects[holder];
    w.(objects := w.objects[holder := n.(childObjects := n.childObjects + [child])])
  }

  /** `add_child_event`: append, with no check for a copy already there. */
  function AddChildEvent(w: World, holder: ObjectId, ev: EventId): (r: World)
    requires holder in w.objects
    ensures r.objects.Keys == w.objects.Keys
    ensures r.objects[holder].childEvents == w.objects[holder].childEvents + [ev]
    ensures r.objects[holder] == w.objects[holder].(childEvents := r.objects[holder].childEvents)
    ensures r == w.(objects := r.objects)
    ensures forall o :: o in w.objects && o != holder ==> r.objects[o] == w.objects[o]
  {
    var n := w.objects[holder];
    w.(objects := w.objects[holder := n.(childEvents := n.childEvents + [ev])])
  }

  /** `remove_child_object`: the flag says whether the child was listed; if
      it was, one copy leaves the list by swap-with-last and the child's
      parent link is cleared, otherwise nothing changes. */
  function RemoveChildObject(w: World, holder: ObjectId, child: ObjectId): (r: (bool, World))
    requires holder in w.objects && child in w.objects
    ensures r.0 <==> child in w.objects[holder].childObjects
    ensures !r.0 ==> r.1 == w
    ensures r.0 ==> r.1 == w.(objects := r.1.objects)
    ensures r.0 ==> r.1.objects.Keys == w.objects.Keys
    ensures r.0 ==> |r.1.objects[holder].childObjects| == |w.objects[holder].childObjects| - 1
    ensures r.0 ==> multiset(r.1.objects[holder].childObjects)
                      == multiset(w.objects[holder].childObjects) - multiset{child}
    ensures r.0 ==> r.1.objects[child].parent.None?
    ensures r.0 ==> forall o :: o in w.objects && o != holder && o != child ==> r.1.objects[o] == w.objects[o]
    ensures r.0 && holder != child ==>
              r.1.objects[holder] == w.objects[holder].(childObjects := r.1.objects[holder].childObjects)
    ensures r.0 && holder != child ==> r.1.objects[child] == w.objects[child].(parent := None)
  {
    var n := w.objects[holder];
    var (found, rest) := Vectors.Remove(n.childObjects, child);
    if !found then (false, w)
    else
      var objs := w.objects[holder := n.(childObjects := rest)];
      var objs' := objs[child := objs[child].(parent := None)];
      assert objs'[holder].childObjects == rest;
      (true, w.(objects := objs'))
  }

  /** `remove_child_event`: like `RemoveChildObject`, but the event itself
      is left untouched. */
  function RemoveChildEvent(w: World, holder: ObjectId, ev: EventId): (r: (bool, World))
    requires holder in w.objects
    ensures r.0 <==> ev in w.objects[holder].childEvents
    ensures !r.0 ==> r.1 == w
    ensures r.0 ==> && r.1.objects.Keys == w.objects.Keys
                    && |r.1.objects[holder].childEvents| == |w.objects[holder].childEvents| - 1
                    && multiset(r.1.objects[holder].childEvents)
                         == multiset(w.objects[holder].childEvents) - multiset{ev}
                    && r.1.objects[holder] == w.objects[holder].(childEvents := r.1.objects[holder].childEvents)
                    && r.1 == w.(objects := r.1.objects)
                    && (forall o :: o in w.objects && o != holder ==> r.1.objects[o] == w.objects[o])
  {
    var n := w.objects[holder];
    var (found, rest) := Vectors.Remove(n.childEvents, ev);
    if !found then (false, w)
    else (true, w.(objects := w.objects[holder := n.(childEvents := rest)]))
  }

  /** Adding a child and removing it again: the removal finds it, the
      child's parent link ends up cleared, and the holder's list holds the
      same children as before (exactly the same list when the child was not
      already listed). */
  lemma AddThenRemoveChildObject(w: World, holder: ObjectId, child: ObjectId)
    requires holder in w.objects && child in w.objects && holder != child
    ensures RemoveChildObject(AddChildObject(w, holder, child), holder, child).0
    ensures var r := RemoveChildObject(AddChildObject(w, holder, child), holder, child).1;
            && r.objects[child].parent.None?
            && multiset(r.objects[holder].childObjects) == multiset(w.objects[holder].childObjects)
            && (child !in w.objects[holder].childObjects ==> r.objects[holder] == w.objects[holder])
  {
    var xs := w.objects[holder].childObjects;
    Vectors.AppendThenRemove(xs, child);
  }

  /** Adding an event and removing it again: same as for objects, and the
      events themselves are never touched. */
  lemma AddThenRemoveChildEvent(w: World, holder: ObjectId, ev: EventId)
    requires holder in w.objects
    ensures RemoveChildEvent(AddChildEvent(w, holder, ev), holder, ev).0
    ensures var r := RemoveChildEvent(AddChildEvent(w, holder, ev), holder, ev).1;
            && r.events == w.events
            && multiset(r.objects[holder].childEvents) == multiset(w.objects[holder].childEvents)
            && (ev !in w.objects[holder].childEvents ==> r == w)
  {
    var xs := w.objects[holder].childEvents;
    Vectors.AppendThenRemove(xs, ev);
    var a := AddChildEvent(w, holder, ev);
    assert a.objects[holder].childEvents == xs + [ev];
    if ev !in xs {
      assert Vectors.Remove(xs + [ev], ev) == (true, xs);
      assert a.objects[holder].(childEvents := xs) == w.objects[holder];
      assert a.objects[holder := w.objects[holder]] == w.objects;
      assert RemoveChildEvent(a, holder, ev).1 == a.(objects := a.objects[holder := w.objects[holder]]);
    }
  }

  // ---------------------------------------------------------------------------
  // Attachment to the parent or to the simulation root
  // ---------------------------------------------------------------------------

  /** Add to the parent's child objects, or to the root's when there is no
      parent. */
  function Attach(w: World, parent: Option<ObjectId>, id: ObjectId): (r: World)
    requires parent.Some? ==> parent.value in w.objects
    ensures r == w.(objects := r.objects, rootObjects := r.rootObjects)
    ensures r.objects.Keys == w.objects.Keys
    ensures parent.Some? ==>
              && r.objects[parent.value] == w.objects[parent.value].(childObjects := w.objects[parent.value].childObjects + [id])
              && r.rootObjects == w.rootObjects
    ensures parent.None? ==> r.rootObjects == w.rootObjects + [id] && r.objects == w.objects
    ensures forall o :: o in w.objects && parent != Some(o) ==> r.objects[o] == w.objects[o]
  {
    match parent
    case Some(p) => AddChildObject(w, p, id)
    case None => w.(rootObjects := w.rootObjects + [id])
  }

  /** Remove from the parent's child objects (which clears the link), or
      from the root's when there is no parent. The root's list (kept by the
      simulation context) is taken to use the same swap-with-last removal. */
  function Unlink(w: World, parent: Option<ObjectId>, id: ObjectId): (r: World)
    requires parent.Some? ==> parent.value in w.objects
    requires id in w.objects
    ensures r == w.(objects := r.objects, rootObjects := r.rootObjects)
    ensures r.objects.Keys == w.objects.Keys
    ensures parent.Some? ==>
              var p := parent.value;
              && multiset(r.objects[p].childObjects) == multiset(w.objects[p].childObjects) - multiset{id}
              && (id in w.objects[p].childObjects ==> r.objects[id].parent.None?)
              && (id !in w.objects[p].childObjects ==> r.objects == w.objects)
              && (p != id ==> r.objects[p] == w.objects[p].(childObjects := r.objects[p].childObjects))
              && (p != id ==> r.objects[id] == w.objects[id].(parent := r.objects[id].parent))
              && r.rootObjects == w.rootObjects
    ensures parent.None? ==>
              && multiset(r.rootObjects) == multiset(w.rootObjects) - multiset{id}
              && r.objects == w.objects
    ensures forall o :: o in w.objects && o != id && parent != Some(o) ==> r.objects[o] == w.objects[o]
  {
    match parent
    case Some(p) => RemoveChildObject(w, p, id).1
    case None => w.(rootObjects := Vectors.Remove(w.rootObjects, id).1)
  }

  // ---------------------------------------------------------------------------
  // Construction
  // ---------------------------------------------------------------------------

  /** The leaf name `sc_object_init` asks the object manager for: the
      given one, or a generated `{n}` name when none was given. */
  function InitLeaf(w: World, nm: Option<seq<char>>): (r: (seq<char>, nat))
  {
    if nm.Some? then (nm.value, w.nameCounter) else Naming.NewName(w.nameCounter)
  }

  /** The path of the active object, the context a new name is made in. */
  function ActivePath(w: World): (r: Option<Path>)
    requires ActiveIsLive(w)
    ensures r.Some? <==> w.active.Some?
    ensures r.Some? ==> r.value == w.objects[w.active.value].name
  {
    match w.active
    case None => None
    case Some(a) => Some(w.objects[a].name)
  }

  /** `sc_object_init`: the new object's parent is the active object, its
      name comes from the object manager, and only an object given a name
      is entered in the directory and attached to its parent, or to the
      root when it has none. */
  function ObjectInit(w: World, id: ObjectId, nm: Option<seq<char>>, resolve: NameResolver): (r: World)
    requires id !in w.objects
    requires ActiveIsLive(w)
    requires ResolvesFresh(resolve)
    ensures r.objects.Keys == w.objects.Keys + {id}
    ensures r.objects[id].name !in w.directory
    ensures r.objects[id].parent == w.active
    ensures r.objects[id].childObjects == [] && r.objects[id].childEvents == []
    ensures r.objects[id].attributes.None?
    ensures nm.Some? ==> r.objects[id].name == resolve(w.directory, ActivePath(w), nm.value)
    ensures nm.None? ==> r.objects[id].name == resolve(w.directory, ActivePath(w), Naming.NewName(w.nameCounter).0)
    ensures nm.Some? ==> r.nameCounter == w.nameCounter
    ensures nm.None? ==> r.nameCounter == w.nameCounter + 1
    ensures nm.None? ==> r == w.(objects := w.objects[id := r.objects[id]], nameCounter := r.nameCounter)
    ensures nm.Some? ==> r.directory == w.directory[r.objects[id].name := id]
    ensures nm.Some? && w.active.Some? ==>
              && r.objects[w.active.value].childObjects == w.objects[w.active.value].childObjects + [id]
              && r.rootObjects == w.rootObjects
              && r.objects[w.active.value]
                   == w.objects[w.active.value].(childObjects := r.objects[w.active.value].childObjects)
    ensures nm.Some? && w.active.None? ==> r.rootObjects == w.rootObjects + [id]
    ensures forall o :: o in w.objects && w.active != Some(o) ==> r.objects[o] == w.objects[o]
    ensures r.events == w.events && r.rootEvents == w.rootEvents && r.warnings == w.warnings
    ensures r.active == w.active
  {
    var (leaf, counter) := InitLeaf(w, nm);
    var node := Node(resolve(w.directory, ActivePath(w), leaf), w.active, [], [], None);
    var w1 := w.(objects := w.objects[id := node], nameCounter := counter);
    if nm.None? then w1
    else Attach(w1.(directory := w1.directory[node.name := id]), w.active, id)
  }

  /** The name the named constructor asks for: the given one, or the
      externally generated "object" name when it is missing or empty. */
  function Requested(nm: Option<seq<char>>, generated: seq<char>): (r: seq<char>)
    ensures nm.Some? && |nm.value| > 0 ==> r == nm.value
    ensures nm.None? || |nm.value| == 0 ==> r == generated
  {
    if nm.None? || |nm.value| == 0 then generated else nm.value
  }

  /** `sc_object(const char*)`: a missing or empty name is replaced by the
      generated one, the name is sanitized with a warning when that changed
      it, and the object is then initialised with the sanitized name, so it
      always enters the directory and the hierarchy. */
  function Construct(w: World, id: ObjectId, nm: Option<seq<char>>, generated: seq<char>,
                     resolve: NameResolver): (r: World)
    requires id !in w.objects
    requires ActiveIsLive(w)
    requires ResolvesFresh(resolve)
    ensures r.objects.Keys == w.objects.Keys + {id}
    ensures r.objects[id].name == resolve(w.directory, ActivePath(w), Naming.Sanitize(Requested(nm, generated)))
    ensures r.objects[id].name !in w.directory
    ensures r.directory == w.directory[r.objects[id].name := id]
    ensures r.objects[id].parent == w.active
    ensures r.objects[id].childObjects == [] && r.objects[id].childEvents == []
    ensures r.objects[id].attributes.None?
    ensures w.active.Some? ==> r.objects[w.active.value].childObjects
                                 == w.objects[w.active.value].childObjects + [id]
    ensures w.active.None? ==> r.rootObjects == w.rootObjects + [id]
    ensures w.active.Some? ==> r.rootObjects == w.rootObjects
    ensures w.active.Some? ==> r.objects[w.active.value]
                                 == w.objects[w.active.value].(childObjects := r.objects[w.active.value].childObjects)
    ensures forall o :: o in w.objects && w.active != Some(o) ==> r.objects[o] == w.objects[o]
    ensures r == w.(objects := r.objects, directory := r.directory, rootObjects := r.rootObjects,
                    warnings := r.warnings)
    ensures r.nameCounter == w.nameCounter
    ensures Naming.LegalName(Requested(nm, generated)) ==> r.warnings == w.warnings
    ensures !Naming.LegalName(Requested(nm, generated)) ==>
              r.warnings == w.warnings + [IllegalCharacters(Naming.SubstitutionMessage(
                                             Requested(nm, generated), Naming.Sanitize(Requested(nm, generated))))]
  {
    var requested := Requested(nm, generated);
    var leaf := Naming.Sanitize(requested);
    var w1 := if Naming.LegalName(requested) then w
              else w.(warnings := w.warnings + [IllegalCharacters(Naming.SubstitutionMessage(requested, leaf))]);
    ObjectInit(w1, id, Some(leaf), resolve)
  }

  /** The directory stays consistent through construction, and the new
      object is the one its name leads to. */
  lemma ObjectInitKeepsDirectory(w: World, id: ObjectId, nm: Option<seq<char>>, resolve: NameResolver)
    requires id !in w.objects
    requires ActiveIsLive(w)
    requires ResolvesFresh(resolve)
    requires DirectoryConsistent(w)
    ensures DirectoryConsistent(ObjectInit(w, id, nm, resolve))
    ensures nm.Some? ==> var r := ObjectInit(w, id, nm, resolve); r.directory[r.objects[id].name] == id
  {
    var r := ObjectInit(w, id, nm, resolve);
    forall p | p in r.directory
      ensures r.directory[p] in r.objects && r.objects[r.directory[p]].name == p
    {
      if p in w.directory {
        var o := w.directory[p];
        assert o != id;
        if w.active == Some(o) {
          assert r.objects[o].name == w.objects[o].name;
        }
      }
    }
  }

  /** Under the hierarchy's naming rule, a named object whose plain path is
      free is called `<parent path>.<leaf>` (just `<leaf>` at the top
      level), and its basename is the leaf it was given. */
  lemma ObjectInitPathName(w: World, id: ObjectId, leaf: seq<char>, resolve: NameResolver)
    requires id !in w.objects
    requires ActiveIsLive(w)
    requires ResolvesFresh(resolve) && KeepsFreePaths(resolve)
    requires Naming.LegalName(leaf)
    requires PlainPath(ActivePath(w), leaf) !in w.directory
    ensures var name := ObjectInit(w, id, Some(leaf), resolve).objects[id].name;
            && (w.active.Some? ==> name == w.objects[w.active.value].name + [Naming.HierarchyChar] + leaf)
            && (w.active.None? ==> name == leaf)
            && Naming.Basename(name) == leaf
  {
    assert Naming.HierarchyChar !in leaf;
    match ActivePath(w)
    case None => Naming.BasenameOfLeaf(leaf);
    case Some(pp) => Naming.BasenameOfPath(pp, leaf);
  }

  /** Construction keeps the directory and the live objects in step: every
      entry leads to the object of that name, and every object, the new
      one included, is entered under its own name. */
  lemma ConstructKeepsDirectory(w: World, id: ObjectId, nm: Option<seq<char>>, generated: seq<char>,
                                resolve: NameResolver)
    requires id !in w.objects
    requires ActiveIsLive(w)
    requires ResolvesFresh(resolve)
    requires DirectoryConsistent(w) && Registered(w)
    ensures var r := Construct(w, id, nm, generated, resolve);
            DirectoryConsistent(r) && Registered(r)
  {
    var r := Construct(w, id, nm, generated, resolve);
    forall p | p in r.directory
      ensures r.directory[p] in r.objects && r.objects[r.directory[p]].name == p
    {
      if p in w.directory {
        assert r.objects[w.directory[p]].name == w.objects[w.directory[p]].name;
      }
    }
    forall o | o in r.objects
      ensures r.objects[o].name in r.directory && r.directory[r.objects[o].name] == o
    {
      if o != id {
        assert r.objects[o].name == w.objects[o].name;
      }
    }
  }

  // ---------------------------------------------------------------------------
  // Teardown
  // ---------------------------------------------------------------------------

  /** `detach`: the object's name leaves the directory and the object
      leaves its parent's child list (clearing its parent link if it was
      listed there), or the root's list when it has no parent. */
  function Detach(w: World, id: ObjectId): (r: World)
    requires id in w.objects
    requires w.objects[id].parent.Some? ==> w.objects[id].parent.value in w.objects
    ensures r.objects.Keys == w.objects.Keys
    ensures r.directory == w.directory - {w.objects[id].name}
    ensures w.objects[id].parent.Some? ==>
              var p := w.objects[id].parent.value;
              && multiset(r.objects[p].childObjects) == multiset(w.objects[p].childObjects) - multiset{id}
              && (id in w.objects[p].childObjects ==> r.objects[id].parent.None?)
              && (id !in w.objects[p].childObjects ==> r.objects == w.objects)
              && r.rootObjects == w.rootObjects
    ensures w.objects[id].parent.None? ==>
              && multiset(r.rootObjects) == multiset(w.rootObjects) - multiset{id}
              && r.objects == w.objects
    ensures w.objects[id].parent.Some? && w.objects[id].parent.value != id ==>
              var p := w.objects[id].parent.value;
              && r.objects[p] == w.objects[p].(childObjects := r.objects[p].childObjects)
              && r.objects[id] == w.objects[id].(parent := r.objects[id].parent)
    ensures forall o :: o in w.objects && o != id && Some(o) != w.objects[id].parent ==> r.objects[o] == w.objects[o]
    ensures r == w.(objects := r.objects, directory := r.directory, rootObjects := r.rootObjects)
  {
    var n := w.objects[id];
    Unlink(w.(directory := w.directory - {n.name}), n.parent, id)
  }

  /** `~sc_object`: detach, then the object (with its attribute bag) is
      gone. Its children are neither destroyed nor reparented here. */
  function Destroy(w: World, id: ObjectId): (r: World)
    requires id in w.objects
    requires w.objects[id].parent.Some? ==> w.objects[id].parent.value in w.objects
    ensures r.objects.Keys == w.objects.Keys - {id}
    ensures r.directory == w.directory - {w.objects[id].name}
    ensures w.objects[id].parent.Some? && w.objects[id].parent.value != id ==>
              var p := w.objects[id].parent.value;
              && multiset(r.objects[p].childObjects) == multiset(w.objects[p].childObjects) - multiset{id}
              && r.objects[p] == w.objects[p].(childObjects := r.objects[p].childObjects)
              && r.rootObjects == w.rootObjects
    ensures w.objects[id].parent.None? ==> multiset(r.rootObjects) == multiset(w.rootObjects) - multiset{id}
    ensures forall o :: o in r.objects && Some(o) != w.objects[id].parent ==> r.objects[o] == w.objects[o]
    ensures r == w.(objects := r.objects, directory := r.directory, rootObjects := r.rootObjects)
  {
    var d := Detach(w, id);
    d.(objects := d.objects - {id})
  }

  /** Teardown keeps the directory and the live objects in step: the
      destroyed object's entry is the only one that leaves. */
  lemma DestroyKeepsDirectory(w: World, id: ObjectId)
    requires id in w.objects
    requires w.objects[id].parent.Some? ==> w.objects[id].parent.value in w.objects
    requires DirectoryConsistent(w) && Registered(w)
    ensures var r := Destroy(w, id);
            DirectoryConsistent(r) && Registered(r)
  {
    var r := Destroy(w, id);
    var gone := w.objects[id].name;
    forall o | o in r.objects
      ensures r.objects[o].name == w.objects[o].name
    {
      if Some(o) == w.objects[id].parent {
        assert r.objects[o] == w.objects[o].(childObjects := r.objects[o].childObjects);
      }
    }
    forall p | p in r.directory
      ensures r.directory[p] in r.objects && r.objects[r.directory[p]].name == p
    {
      assert p != gone && w.directory[p] != id;
    }
    forall o | o in r.objects
      ensures r.objects[o].name in r.directory && r.directory[r.objects[o].name] == o
    {
      assert w.objects[o].name != gone;
    }
  }

  /** Constructing a named object and destroying it again gives back the
      world it was constructed in, provided nothing referred to its id. */
  lemma InitThenDestroy(w: World, id: ObjectId, leaf: seq<char>, resolve: NameResolver)
    requires id !in w.objects
    requires ActiveIsLive(w)
    requires ResolvesFresh(resolve)
    requires Unreferenced(w, id)
    ensures Destroy(ObjectInit(w, id, Some(leaf), resolve), id) == w
  {
    var name := resolve(w.directory, ActivePath(w), leaf);
    var node := Node(name, w.active, [], [], None);
    var c := ObjectInit(w, id, Some(leaf), resolve);
    assert c.objects[id] == node;
    assert w.directory[name := id] - {name} == w.directory;
    if w.active.Some? {
      var p := w.active.value;
      var np := w.objects[p].(childObjects := w.objects[p].childObjects + [id]);
      assert c == w.(objects := w.objects[id := node][p := np], directory := w.directory[name := id]);
      DestroyUndoesAttachUnderParent(w, id, node, p);
    } else {
      assert c == w.(objects := w.objects[id := node], directory := w.directory[name := id],
                     rootObjects := w.rootObjects + [id]);
      DestroyUndoesAttachAtRoot(w, id, node);
    }
  }

  /** The parent case of `InitThenDestroy`. */
  lemma DestroyUndoesAttachUnderParent(w: World, id: ObjectId, node: Node, p: ObjectId)
    requires id !in w.objects && p in w.objects
    requires node.parent == Some(p) && node.name !in w.directory
    requires id !in w.objects[p].childObjects
    ensures var np := w.objects[p].(childObjects := w.objects[p].childObjects + [id]);
            Destroy(w.(objects := w.objects[id := node][p := np], directory := w.directory[node.name := id]), id) == w
  {
    var xs := w.objects[p].childObjects;
    var np := w.objects[p].(childObjects := xs + [id]);
    var objs := w.objects[id := node][p := np];
    var c := w.(objects := objs, directory := w.directory[node.name := id]);
    assert w.directory[node.name := id] - {node.name} == w.directory;
    var c1 := c.(directory := w.directory);
    assert Detach(c, id) == RemoveChildObject(c1, p, id).1;
    RemoveLastAdded(c1, p, id, xs);
    UndoUpdates(w.objects, id, node, p, np, node.(parent := None));
  }

  /** Inserting a fresh key, updating an old one, restoring the old value,
      and finally dropping the fresh key gives the map back. */
  lemma UndoUpdates<K, V>(m: map<K, V>, k: K, v: V, j: K, u: V, v2: V)
    requires k !in m && j in m
    ensures m[k := v][j := u][j := m[j]][k := v2] - {k} == m
  {
    var r := m[k := v][j := u][j := m[j]][k := v2] - {k};
    assert r.Keys == m.Keys;
    forall x | x in r ensures r[x] == m[x] {
    }
  }

  /** Removing a child that was appended last to a list that did not hold
      it before restores the list and clears the child's link. */
  lemma RemoveLastAdded(w: World, holder: ObjectId, child: ObjectId, xs: seq<ObjectId>)
    requires holder in w.objects && child in w.objects && holder != child
    requires w.objects[holder].childObjects == xs + [child]
    requires child !in xs
    ensures RemoveChildObject(w, holder, child).1
              == w.(objects := w.objects[holder := w.objects[holder].(childObjects := xs)]
                                        [child := w.objects[child].(parent := None)])
  {
    Vectors.AppendThenRemove(xs, child);
    assert Vectors.Remove(xs + [child], child) == (true, xs);
  }

  /** The root case of `InitThenDestroy`. */
  lemma DestroyUndoesAttachAtRoot(w: World, id: ObjectId, node: Node)
    requires id !in w.objects
    requires node.parent.None? && node.name !in w.directory
    requires id !in w.rootObjects
    ensures Destroy(w.(objects := w.objects[id := node], directory := w.directory[node.name := id],
                       rootObjects := w.rootObjects + [id]), id) == w
  {
    Vectors.AppendThenRemove(w.rootObjects, id);
    assert w.directory[node.name := id] - {node.name} == w.directory;
    assert w.objects[id := node] - {id} == w.objects;
  }

  // ---------------------------------------------------------------------------
  // Orphaning
  // ---------------------------------------------------------------------------

  /** Clear the parent link of each listed object, in order, appending each
      to the root's child objects. */
  function ReparentObjectsToRoot(w: World, cs: seq<ObjectId>): (r: World)
    requires forall c :: c in cs ==> c in w.objects
    ensures r.objects.Keys == w.objects.Keys
    ensures r.rootObjects == w.rootObjects + cs
    ensures forall c :: c in cs ==> r.objects[c] == w.objects[c].(parent := None)
    ensures forall o :: o in w.objects && o !in cs ==> r.objects[o] == w.objects[o]
    ensures r == w.(objects := r.objects, rootObjects := r.rootObjects)
    decreases |cs|
  {
    if |cs| == 0 then w
    else
      var c := cs[0];
      var w1 := w.(objects := w.objects[c := w.objects[c].(parent := None)], rootObjects := w.rootObjects + [c]);
      assert w.rootObjects + cs == w1.rootObjects + cs[1..];
      ReparentObjectsToRoot(w1, cs[1..])
  }

  /** `orphan_child_objects`: every child object loses its parent link and
      becomes a child of the root, in list order; no object is destroyed,
      and the object's own list is left as it was. */
  function OrphanChildObjects(w: World, id: ObjectId): (r: World)
    requires id in w.objects
    requires forall c :: c in w.objects[id].childObjects ==> c in w.objects
    ensures r.objects.Keys == w.objects.Keys
    ensures r.rootObjects == w.rootObjects + w.objects[id].childObjects
    ensures forall c :: c in w.objects[id].childObjects ==> r.objects[c] == w.objects[c].(parent := None)
    ensures forall o :: o in w.objects && o !in w.objects[id].childObjects ==> r.objects[o] == w.objects[o]
    ensures r == w.(objects := r.objects, rootObjects := r.rootObjects)
  {
    ReparentObjectsToRoot(w, w.objects[id].childObjects)
  }

  /** Clear the parent link of each listed event, in order, appending each
      to the root's child events. */
  function ReparentEventsToRoot(w: World, es: seq<EventId>): (r: World)
    requires forall e :: e in es ==> e in w.events
    ensures r.events.Keys == w.events.Keys
    ensures r.rootEvents == w.rootEvents + es
    ensures forall e :: e in es ==> r.events[e].parent.None?
    ensures forall e :: e in w.events && e !in es ==> r.events[e] == w.events[e]
    ensures r == w.(events := r.events, rootEvents := r.rootEvents)
    decreases |es|
  {
    if |es| == 0 then w
    else
      var e := es[0];
      var w1 := w.(events := w.events[e := Event(None)], rootEvents := w.rootEvents + [e]);
      assert w.rootEvents + es == w1.rootEvents + es[1..];
      ReparentEventsToRoot(w1, es[1..])
  }

  /** `orphan_child_events`: every child event loses its parent link and
      becomes a child event of the root; objects are untouched. */
  function OrphanChildEvents(w: World, id: ObjectId): (r: World)
    requires id in w.objects
    requires forall e :: e in w.objects[id].childEvents ==> e in w.events
    ensures r.events.Keys == w.events.Keys
    ensures r.rootEvents == w.rootEvents + w.objects[id].childEvents
    ensures forall e :: e in w.objects[id].childEvents ==> r.events[e].parent.None?
    ensures forall e :: e in w.events && e !in w.objects[id].childEvents ==> r.events[e] == w.events[e]
    ensures r == w.(events := r.events, rootEvents := r.rootEvents)
  {
    ReparentEventsToRoot(w, w.objects[id].childEvents)
  }

  /** Orphaning an object's children and then destroying the object leaves
      every child alive, without a parent and listed under the root. */
  lemma OrphanThenDestroy(w: World, id: ObjectId)
    requires id in w.objects
    requires w.objects[id].parent.Some? ==> w.objects[id].parent.value in w.objects
    requires forall c :: c in w.objects[id].childObjects ==> c in w.objects && c != id
    ensures var r := Destroy(OrphanChildObjects(w, id), id);
            forall c :: c in w.objects[id].childObjects ==>
              c in r.objects && r.objects[c].parent.None? && c in r.rootObjects
  {
    forall c | c in w.objects[id].childObjects
      ensures var r := Destroy(OrphanChildObjects(w, id), id);
              c in r.objects && r.objects[c].parent.None? && c in r.rootObjects
    {
      OrphanSurvivesDestroy(w, id, c);
    }
  }

  /** One child of `OrphanThenDestroy`: after orphaning it is a root
      object without a parent, and the destroyed object is not its parent
      any more, so neither its link nor its listing under the root is
      touched by the teardown. */
  lemma OrphanSurvivesDestroy(w: World, id: ObjectId, c: ObjectId)
    requires id in w.objects
    requires w.objects[id].parent.Some? ==> w.objects[id].parent.value in w.objects
    requires forall x :: x in w.objects[id].childObjects ==> x in w.objects && x != id
    requires c in w.objects[id].childObjects
    ensures var r := Destroy(OrphanChildObjects(w, id), id);
            c in r.objects && r.objects[c].parent.None? && c in r.rootObjects
  {
    var o := OrphanChildObjects(w, id);
    var d := Detach(o, id);
    assert c in o.rootObjects && o.objects[c].parent.None?;
    assert o.objects[id] == w.objects[id];
    match w.objects[id].parent
    case None =>
      assert multiset(d.rootObjects)[c] == multiset(o.rootObjects)[c];
    case Some(p) =>
      if c == p {
        assert d.objects[p] == o.objects[p].(childObjects := d.objects[p].childObjects);
      } else {
        assert d.objects[c] == o.objects[c];
      }
  }

  // ---------------------------------------------------------------------------
  // Attributes of an object
  // ---------------------------------------------------------------------------

  /** `num_attributes` of a live object. */
  function NumAttributes(w: World, id: ObjectId): (n: nat)
    requires id in w.objects
    ensures w.objects[id].attributes.None? ==> n == 0
    ensures w.objects[id].attributes.Some? ==> n == |w.objects[id].attributes.value|
  {
    Attributes.Count(w.objects[id].attributes)
  }

  /** `remove_attribute` on a live object: with no bag, nothing is found and
      nothing is allocated. */
  function RemoveAttribute(w: World, id: ObjectId, name: Attributes.AttrName): (r: (Option<Attributes.Handle>, World))
    requires id in w.objects
    ensures w.objects[id].attributes.None? ==> r == (None, w)
    ensures r.1.objects.Keys == w.objects.Keys
    ensures r.0.Some? ==> NumAttributes(r.1, id) == NumAttributes(w, id) - 1
    ensures r.0.None? ==> NumAttributes(r.1, id) == NumAttributes(w, id)
    ensures r.0.Some? ==> && w.objects[id].attributes.Some?
                          && name in w.objects[id].attributes.value
                          && r.0.value == w.objects[id].attributes.value[name]
    ensures r.1.objects[id].attributes.Some? ==> name !in r.1.objects[id].attributes.value
    ensures r.1.objects[id] == w.objects[id].(attributes := r.1.objects[id].attributes)
    ensures forall o :: o in w.objects && o != id ==> r.1.objects[o] == w.objects[o]
    ensures r.1 == w.(objects := r.1.objects)
  {
    var n := w.objects[id];
    var (found, bag) := Attributes.Remove(n.attributes, name);
    if n.attributes.None? then (None, w)
    else
      assert name in n.attributes.value ==> |n.attributes.value - {name}| == |n.attributes.value| - 1;
      assert name !in n.attributes.value ==> n.attributes.value - {name} == n.attributes.value;
      (found, w.(objects := w.objects[id := n.(attributes := bag)]))
  }
}

=== FILE: outcomes.dfy ===
/** Optional values and success/failure results shared by the object and
    export models. A null pointer of the C++ code becomes `None`; an error
    that SystemC reports becomes a `Failure` carrying what was reported. */
module Outcomes {

  /** A value that may be absent, in place of a possibly-null pointer. */
  datatype Option<+T> = None | Some(value: T)

  /** Either a result or the fault that stopped the operation. */
  datatype Result<+R, +E> = Success(value: R) | Failure(error: E) {

    predicate IsFailure() {
      Failure?
    }

    function PropagateFailure<U>(): Result<U, E>
      requires Failure?
    {
      Failure(error)
    }

    function Extract(): R
      requires Success?
    {
      value
    }
  }
}

=== FILE: vectors.dfy ===
/** Vectors of non-owning references, kept with the discipline the kernel
    uses for child lists and for the export registry: appending never checks
    for duplicates, and removing swaps the found element with the last one
    and shrinks the vector, so order is not preserved across removals. */
module Vectors {

  /** Position of the first element equal to `x`, or -1 when there is none. */
  function IndexOf<T(==)>(xs: seq<T>, x: T): (r: int)
    ensures -1 <= r < |xs|
    ensures r == -1 <==> x !in xs
    ensures 0 <= r ==> xs[r] == x && x !in xs[..r]
    decreases |xs|
  {
    if |xs| == 0 then -1
    else if xs[0] == x then 0
    else
      var k := IndexOf(xs[1..], x);
      if k == -1 then -1
      else
        assert xs[..k + 1] == [xs[0]] + xs[1..][..k];
        k + 1
  }

  /** Overwrite position `i` with the last element, then drop the last slot. */
  function SwapRemoveAt<T>(xs: seq<T>, i: nat): (r: seq<T>)
    requires i < |xs|
    ensures |r| == |xs| - 1
    ensures multiset(r) == multiset(xs) - multiset{xs[i]}
    ensures forall j :: 0 <= j < |r| && j != i ==> r[j] == xs[j]
    ensures i < |r| ==> r[i] == xs[|xs| - 1]
  {
    var r := xs[i := xs[|xs| - 1]][..|xs| - 1];
    SwapRemoveMultiset(xs, i);
    r
  }

  /** The multiset side of `SwapRemoveAt`: the copy of the last element
      written over slot `i` makes up for the one dropped from the end. */
  lemma SwapRemoveMultiset<T>(xs: seq<T>, i: nat)
    requires i < |xs|
    ensures multiset(xs[i := xs[|xs| - 1]][..|xs| - 1]) == multiset(xs) - multiset{xs[i]}
  {
    var last := |xs| - 1;
    var u := xs[i := xs[last]];
    var r := u[..last];
    assert u == r + [xs[last]];
    assert multiset(u) == multiset(xs) - multiset{xs[i]} + multiset{xs[last]};
    forall y ensures multiset(r)[y] == (multiset(xs) - multiset{xs[i]})[y] {
      assert multiset(u)[y] == (multiset(r) + multiset{xs[last]})[y];
    }
  }

  /** Remove the first occurrence of `x` by swap-with-last; the flag says
      whether `x` was present. */
  function Remove<T(==)>(xs: seq<T>, x: T): (r: (bool, seq<T>))
    ensures r.0 <==> x in xs
    ensures r.0 ==> |r.1| == |xs| - 1 && multiset(r.1) == multiset(xs) - multiset{x}
    ensures !r.0 ==> r.1 == xs
  {
    var i := IndexOf(xs, x);
    if i == -1 then (false, xs) else (true, SwapRemoveAt(xs, i))
  }

  /** The scanning loop shared by the child-object and child-event removals:
      walk from the front, and at the first match overwrite it with the last
      element and pop the back. */
  method RemoveFirst<T(==)>(xs: seq<T>, x: T) returns (found: bool, ys: seq<T>)
    ensures found <==> x in xs
    ensures (found, ys) == Remove(xs, x)
  {
    var size := |xs|;
    var i := 0;
    while i < size
      invariant 0 <= i <= size
      invariant x !in xs[..i]
    {
      if x == xs[i] {
        return true, SwapRemoveAt(xs, i);
      }
      assert xs[..i + 1] == xs[..i] + [xs[i]];
      i := i + 1;
    }
    assert xs[..size] == xs;
    return false, xs;
  }

  /** Appending and then removing the same element gives the multiset back;
      when the element was not already present the vector comes back
      exactly, because the appended copy is the first one found. */
  lemma AppendThenRemove<T>(xs: seq<T>, x: T)
    ensures Remove(xs + [x], x).0
    ensures multiset(Remove(xs + [x], x).1) == multiset(xs)
    ensures x !in xs ==> Remove(xs + [x], x).1 == xs
  {
    var ys := xs + [x];
    assert ys[|xs|] == x;
    if x !in xs {
      assert ys[..|xs|] == xs;
      assert IndexOf(ys, x) == |xs|;
    }
  }
}
